=== FILE: README.md ===
# jetty-sse-helper in Dafny

A model of `org.riversun.sse.SSEHelper`, a small helper that holds open
Server-Sent Events connections through the Servlet 3 asynchronous API and
pushes events to them. It has three parts:

- **`MessageEvent`** builds its wire frame once, in the constructor, and
  `toString` returns it. The frame follows the `text/event-stream` format
  of section 9.2 of the WHATWG HTML Living Standard, with every line ended
  by a line feed. Cut at its line feeds, it has, in this order:
  - an optional `event: ` line;
  - one `data: ` line per segment of `data.split("\n")`;
  - an optional `retry: ` line;
  - an optional `id: ` line;
  - the blank line that dispatches the event.

  Carriage returns in the name, the id or the data are written as they are.
  The format also ends a line at a carriage return, so a client reads such
  a field as more than one line (see "## Findings").
- **`EventTarget`** wraps one asynchronous request:
  - `ok` sets the status and headers;
  - `open` prints the `event: open` handshake;
  - the two `send`s print a frame;
  - `close` and the container's `onComplete` callback track completion.
- **`SSEHelper`** keeps the list of targets. It registers targets
  (`addTarget`), sends one event to each of them (`broadcast`) and closes
  all of them (`clearTargets`).

## Files

| file | module | what |
|---|---|---|
| `wrappers.dfy` | `Wrappers` | `Option`, which stands in for a nullable reference |
| `java_text.dfy` | `JavaText` | `String.replace("\n", "")`, `String.split("\n")` and joining with line feeds |
| `decimal.dfy` | `Decimal` | `Integer.toString` and reading it back |
| `message_event.dfy` | `MessageEvents` | `MessageEvent`: `build`, both constructors, `toString` |
| `frames.dfy` | `Frames` | a decoder for frames, written independently of `build`, and the round trip |
| `examples_frames.dfy` | `FrameExamples` | concrete frames and splits worked out from the definitions |
| `event_target.dfy` | `EventTargets` | `EventTarget` and its listener; call sequences on one target |
| `sse_helper.dfy` | `Registry` | `SSEHelper`: the target list, `addTarget`, `broadcast`, `clearTargets` |
| `carriage_returns.dfy` | `CarriageReturns` | carriage returns in a frame, as written and corrected |

### How the Java is represented

- **`null`:** a Java `null` is `None`.
- **`MessageEvent`:** a `MessageEvent` is an `EventState` whose cached
  string is the frame of its fields. Both constructors call `build` and no
  field changes afterwards, so no other state is reachable.
- **`Integer`:** an `Integer` is an `Int32`, an `int` limited to the 32-bit range.
- **The servlet container:** an `EventTarget` is modelled by:
  - its response, meaning the status and headers `ok` sets;
  - the list of strings printed to its output stream;
  - the number of `AsyncContext.complete()` calls;
  - the `mIsCompleted` flag.
- **I/O failures:** whether a write fails is an argument of the operation
  that writes. A failed write prints nothing.
- **Exceptions:** a method that can throw returns the target's new state
  together with an `Outcome`. This keeps the changes made before
  the exception, such as the headers `ok` set before a failing `open`.
- **Object identity:** targets are objects, and the same one can be added
  twice. The helper therefore holds a list of references into a heap of
  targets.

### Behaviour to note

- **A failed write never removes a target.** `broadcast` has a
  `catch (IOException)` branch that removes the target, with the comment
  that such a target is disconnected (`SSEHelper.java:60`). But
  `EventTarget.send(MessageEvent)` catches every exception itself, so that
  branch never runs. A failed write only means that the target misses that
  frame.
- **`broadcast` returns the helper's list, unchanged.**
- **Sends ignore `close`.** Neither `send` looks at `mIsCompleted`, so the
  write to a closed target is still attempted. Whether it succeeds after
  `complete()` is the write's failure input, as for any other write
  (`EventTargets.SendIgnoresCompletion`). A Servlet 3.1 container refuses
  `getResponse()` after `complete()` with an `IllegalStateException`.
  `send(MessageEvent)` swallows it like any other failure.
  `send(String, String)` lets it through, as it does an `IOException`.
- **The list allows duplicates.** A target added twice is listed twice. A
  broadcast then writes to it twice, and `getTargetList` shows it twice.
- **`send(String, String)` throws.** Unlike the other `send`, it lets the
  `IOException` reach its caller.
- **`ok` sets the response metadata; `open` only prints the handshake.**
  `addTarget` calls both, `ok` first.
- **`ok` can throw before it sets anything.** It asks the context for the
  response first (`SSEHelper.java:94, 133`). A container that refuses it,
  as a Servlet 3.1 container does once `complete()` has run, makes `ok`
  throw before any setter runs. `addTarget` on a closed or completed target
  then changes nothing: no header is set, `open` is not called, and the
  list stays as it was. Whether the container refuses is `ok`'s failure
  input (`EventTargets.TryOk`).
- **`clearTargets` ignores exceptions from `close`.** This changes nothing,
  because `close` sets the flag before it calls `complete()`. The target
  ends as it would after a normal `close`.

## Model

| member | source | states |
|---|---|---|
| Frames.DecodeBuild | src/main/java/org/riversun/sse/SSEHelper.java:196-216 | Decoding the frame `build` produces gives back every field, for any arguments. The event name and id come back without their line feeds, the data as its `split("\n")` segments in order, and the retry value unchanged. |
| Frames.BuildInjective | src/main/java/org/riversun/sse/SSEHelper.java:196-216 | Two events with the same frame have the same line-feed-free name and id, the same data segments and the same retry value. |
| Frames.BuildLineCount | src/main/java/org/riversun/sse/SSEHelper.java:196-216 | A frame has exactly one line feed per line: one per present field, one per data segment, plus the dispatching blank line. |
| Frames.DecodedDataJoins | src/main/java/org/riversun/sse/SSEHelper.java:201-205 | Joining the decoded data lines with line feeds gives the payload without its trailing line feeds. |
| MessageEvents.Build | src/main/java/org/riversun/sse/SSEHelper.java:196-216 | Every frame ends with a line feed. With all four fields null, the frame is the single blank line. |
| MessageEvents.NewMessageEvent | src/main/java/org/riversun/sse/SSEHelper.java:188-194 | The constructor stores the four fields as given. The cached string is the frame of those fields. |
| MessageEvents.NewMessageEvent2 | src/main/java/org/riversun/sse/SSEHelper.java:180-186 | The two-argument constructor is the four-argument one with null `retry` and `id`. |
| MessageEvents.ToString | src/main/java/org/riversun/sse/SSEHelper.java:218-220 | `toString` returns the string cached at construction, never rebuilt. That string is the frame of the event's four fields. |
| MessageEvents.StripLF | src/main/java/org/riversun/sse/SSEHelper.java:199 | A null name stays null. A present one stays present and has no line feed left. |
| JavaText.RemoveChar | src/main/java/org/riversun/sse/SSEHelper.java:199 | `replace("\n", "")`, for any one character in place of the line feed, leaves none of that character, never lengthens the string, and leaves a string without it unchanged. |
| JavaText.RemoveCharKeepsOthers | src/main/java/org/riversun/sse/SSEHelper.java:210 | Every character other than the removed one occurs as often after the replacement as before. |
| JavaText.RemoveCharConcat | src/main/java/org/riversun/sse/SSEHelper.java:210 | The removal works piecewise over concatenation, so the kept characters stay in their order. |
| JavaText.JavaSplit | src/main/java/org/riversun/sse/SSEHelper.java:202 | No segment of `split("\n")` contains a line feed. The empty string gives one empty segment. The last segment of a non-empty string is never empty. |
| JavaText.JavaSplitEmpty | src/main/java/org/riversun/sse/SSEHelper.java:202-204 | `split("\n")` gives no segment, so no `data: ` line is written, exactly when the payload is non-empty and made only of line feeds. |
| JavaText.JoinJavaSplit | src/main/java/org/riversun/sse/SSEHelper.java:202 | Joining the segments with line feeds gives back the string without its trailing line feeds. |
| JavaText.JavaSplitJoin | src/main/java/org/riversun/sse/SSEHelper.java:202 | Splitting the join of any non-empty split result gives that result back. A non-empty split result is a non-empty list of line-feed-free segments whose last segment is not empty, unless it is the only one. |
| JavaText.RawSplitJoin | src/main/java/org/riversun/sse/SSEHelper.java:202 | Cutting the join of a non-empty list of line-feed-free segments at every line feed gives the list back. |
| JavaText.JoinRawSplit | src/main/java/org/riversun/sse/SSEHelper.java:202 | Joining the cut-at-every-line-feed segments gives the string back. |
| JavaText.RawSplitUnlines | src/main/java/org/riversun/sse/SSEHelper.java:203 | Lines that each end in a line feed, cut at every line feed, give the lines plus one empty remainder. |
| Decimal.IntToDecimal | src/main/java/org/riversun/sse/SSEHelper.java:207 | The decimal form of an `Integer` is non-empty. It starts with a minus sign exactly when the value is negative, and is otherwise all digits. |
| Decimal.DecimalChars | src/main/java/org/riversun/sse/SSEHelper.java:207 | The decimal form of an `Integer` holds only a minus sign and decimal digits, so no line break. |
| Decimal.ParseIntToDecimal | src/main/java/org/riversun/sse/SSEHelper.java:207 | Reading the decimal form back gives the integer. |
| FrameExamples.SplitEmpty | src/main/java/org/riversun/sse/SSEHelper.java:202 | An empty payload splits into one empty segment. |
| FrameExamples.SplitOnlyLineFeeds | src/main/java/org/riversun/sse/SSEHelper.java:202 | A payload of one or two line feeds splits into no segment at all. |
| FrameExamples.SplitTrailingLineFeed | src/main/java/org/riversun/sse/SSEHelper.java:202 | A trailing line feed adds no segment. |
| FrameExamples.SplitLeadingLineFeed | src/main/java/org/riversun/sse/SSEHelper.java:202 | A leading line feed gives a leading empty segment. |
| FrameExamples.SplitInnerEmptyLine | src/main/java/org/riversun/sse/SSEHelper.java:202 | An empty line between two lines stays as an empty segment. |
| FrameExamples.SplitKeepsCarriageReturn | src/main/java/org/riversun/sse/SSEHelper.java:202 | A carriage return does not split and stays in its segment. |
| FrameExamples.BuildEventAndData | src/main/java/org/riversun/sse/SSEHelper.java:196-216 | The event `update` with data `hello` is `event: update`, `data: hello` and a blank line. |
| FrameExamples.BuildTwoDataLines | src/main/java/org/riversun/sse/SSEHelper.java:196-216 | A two-line payload gives two `data: ` lines, in order. |
| FrameExamples.BuildEventWithLineFeed | src/main/java/org/riversun/sse/SSEHelper.java:198-200 | A line feed inside the event name is dropped, and the name stays on one line. |
| FrameExamples.BuildDataRetryId | src/main/java/org/riversun/sse/SSEHelper.java:196-216 | Data, retry 3000 and id 42 appear in that order, with no `event: ` line. |
| FrameExamples.BuildNegativeRetry | src/main/java/org/riversun/sse/SSEHelper.java:206-208 | A negative retry value is written with its minus sign. |
| FrameExamples.BuildEmptyData | src/main/java/org/riversun/sse/SSEHelper.java:201-205 | An empty payload still writes one empty `data: ` line. |
| FrameExamples.BuildTrailingLineFeedData | src/main/java/org/riversun/sse/SSEHelper.java:201-205 | A trailing line feed in the payload adds no empty `data: ` line. |
| FrameExamples.BuildLineFeedOnlyData | src/main/java/org/riversun/sse/SSEHelper.java:201-205 | A payload of one line feed writes no `data: ` line, the same frame as no fields at all. |
| FrameExamples.BuildKeepsCarriageReturn | src/main/java/org/riversun/sse/SSEHelper.java:196-216 | Only line feeds are removed from the name and id. Carriage returns pass through. |
| FrameExamples.LineFeedsOnlyShape | src/main/java/org/riversun/sse/SSEHelper.java:201-205 | Any payload made only of line feeds gives the frame of an event with no fields. |
| EventTargets.NewEventTarget | src/main/java/org/riversun/sse/SSEHelper.java:87-91 | A new target has nothing written, no `complete()` call and is not completed. |
| EventTargets.Ok | src/main/java/org/riversun/sse/SSEHelper.java:95-99 | Once the response is obtained, `ok` sets status 200, content type `text/event-stream`, encoding UTF-8, `Cache-Control: no-cache` and `Connection: keep-alive`. It keeps every other header, writes nothing and does not change completion. |
| EventTargets.TryOk | src/main/java/org/riversun/sse/SSEHelper.java:93-101 | `ok` as called throws exactly when the container refuses the response, and then changes nothing. Otherwise it is `Ok`. |
| EventTargets.OkIdempotent | src/main/java/org/riversun/sse/SSEHelper.java:93-101 | Calling `ok` twice is the same as calling it once. |
| EventTargets.Open | src/main/java/org/riversun/sse/SSEHelper.java:103-109 | `open` appends the handshake to the stream. It throws exactly when the write fails, and then changes nothing. |
| EventTargets.OpenFrameIsOpenEvent | src/main/java/org/riversun/sse/SSEHelper.java:105 | The handshake is the frame of an event named `open` with no other field, and it decodes as one. |
| EventTargets.Send | src/main/java/org/riversun/sse/SSEHelper.java:121-130 | `send(MessageEvent)` appends the event's cached frame, or nothing when the write fails. It never throws and touches neither the response nor completion. |
| EventTargets.SendPair | src/main/java/org/riversun/sse/SSEHelper.java:111-119 | `send(String, String)` appends the frame of the two-field event. It throws exactly when the write fails, and then changes nothing. |
| EventTargets.SendPairIsSend | src/main/java/org/riversun/sse/SSEHelper.java:111-130 | Both sends leave the target in the same state. They differ only in that the two-argument one reports the failure. |
| EventTargets.SendIgnoresCompletion | src/main/java/org/riversun/sse/SSEHelper.java:121-130 | Sending commutes with `close` and with `onComplete`: the write is attempted whether or not the target is completed, and whether it succeeds is the failure input. |
| EventTargets.Close | src/main/java/org/riversun/sse/SSEHelper.java:144-149 | After `close` the target is completed. `complete()` is called once more only if it was not completed before. The stream and response are unchanged. |
| EventTargets.CloseIdempotent | src/main/java/org/riversun/sse/SSEHelper.java:144-149 | A second `close` changes nothing. |
| EventTargets.OnComplete | src/main/java/org/riversun/sse/SSEHelper.java:153-156 | The container's completion callback marks the target completed and touches nothing else. |
| EventTargets.CloseAfterOnComplete | src/main/java/org/riversun/sse/SSEHelper.java:144-156 | After the container reports completion, `close` does not call `complete()` again. |
| EventTargets.RunKeepsCompletedOnce | src/main/java/org/riversun/sse/SSEHelper.java:93-156 | For any sequence of calls and write failures, `complete()` runs at most once, only on a completed target, and the stream only grows. |
| EventTargets.NewTargetCompletesOnce | src/main/java/org/riversun/sse/SSEHelper.java:87-156 | A new target never has `complete()` called twice, whatever is done to it. |
| Registry.NewSSEHelper | src/main/java/org/riversun/sse/SSEHelper.java:35 | A new helper has no targets. |
| Registry.GetTargetList | src/main/java/org/riversun/sse/SSEHelper.java:37-39 | The list holds the registered targets in registration order, one entry per registration. |
| Registry.AddTarget | src/main/java/org/riversun/sse/SSEHelper.java:45-47 | The target gets `ok` and then `open`. It is appended exactly when neither throws, and an exception from either reaches the caller with the list unchanged. When `ok` throws, nothing at all changes. When `open` throws, the headers `ok` set stay. No other target changes. |
| Registry.AddTargetOpens | src/main/java/org/riversun/sse/SSEHelper.java:45-47 | An added target is answered with 200 and was sent the handshake as its last frame. If it was not listed before, the list grows by exactly it. |
| Registry.AddTargetKeepsRegistered | src/main/java/org/riversun/sse/SSEHelper.java:45-47 | If every listed target has been answered with 200 and sent the handshake, this stays true after `addTarget`, whether or not `ok` or `open` throws. |
| Registry.DeliveriesOnce | src/main/java/org/riversun/sse/SSEHelper.java:55-64 | In a list without repeats, a target gets one delivery exactly when it is listed at a position whose write succeeds, and none otherwise. |
| Registry.Broadcast | src/main/java/org/riversun/sse/SSEHelper.java:53-66 | The list comes back unchanged and is also the result. Each target receives the frame of the event's fields once for every listing of it whose write succeeds. |
| Registry.BroadcastDistinct | src/main/java/org/riversun/sse/SSEHelper.java:53-66 | With no target listed twice, each listed target gets the frame exactly once unless its write fails. Unlisted targets are untouched. This holds for any frame. |
| Registry.BroadcastKeepsRegistered | src/main/java/org/riversun/sse/SSEHelper.java:53-66 | A broadcast only adds frames, so every listed target stays answered and handshaken. |
| Registry.BroadcastPair | src/main/java/org/riversun/sse/SSEHelper.java:49-51 | `broadcast(String, String)` delivers the two-field frame, which has no `retry` or `id` line, as `broadcast(MessageEvent)` does. |
| Registry.ClearTargets | src/main/java/org/riversun/sse/SSEHelper.java:68-80 | The list ends empty. Each listed target is closed once, even if listed twice, and unlisted targets are untouched. |
| Registry.ClearTargetsCompletes | src/main/java/org/riversun/sse/SSEHelper.java:68-80 | After `clearTargets`, every target that was listed is completed, and no target has had `complete()` called twice. |
| CarriageReturns.NameCarriageReturnReachesFrame | src/main/java/org/riversun/sse/SSEHelper.java:198-211 | A carriage return in the event name or the id is written into the frame, because only line feeds are removed. |
| CarriageReturns.BuildStrictHasNoCR | src/main/java/org/riversun/sse/SSEHelper.java:196-216 | The corrected frame has no carriage return for any fields, so its only line breaks are its line feeds. |
| CarriageReturns.BuildStrictAgrees | src/main/java/org/riversun/sse/SSEHelper.java:196-216 | On fields without carriage returns, the corrected frame is the frame `build` writes. |
| CarriageReturns.DecodeBuildStrict | src/main/java/org/riversun/sse/SSEHelper.java:196-216 | The corrected frame decodes to the name and id without any line break and the payload cut at every line break. |

## Findings

| source | as written | input that shows it | evidently intended | confidence | as-written member | corrected member |
|---|---|---|---|---|---|---|
| src/main/java/org/riversun/sse/SSEHelper.java:198-211 | `build` removes only line feeds from the event name and id and splits the data only at line feeds. Carriage returns stay in the frame, and the event-stream format ends a line at them. | event name `"a\rb"`: the frame's line `event: a\rb` is read by a client as the event name `a` and an unknown field `b` | every kind of line break in a field is handled as a line feed is, so each field stays one line for a client | medium, not executed | CarriageReturns.NameCarriageReturnReachesFrame | CarriageReturns.BuildStrictHasNoCR |

`FrameExamples.BuildKeepsCarriageReturn` gives the full as-written frame for
a name and an id with carriage returns. `CarriageReturns.BuildStrict` is the
corrected encoder. It agrees with `build` on input without carriage returns
(`CarriageReturns.BuildStrictAgrees`) and decodes as `build`'s frames do
(`CarriageReturns.DecodeBuildStrict`). The rest of the model describes the
program, so it keeps `build` as written.

## Left out

- Changes to the list outside the helper's operations: `getTargetList` and
  both `broadcast`s return the helper's own list, and the list field is
  `protected` (`SSEHelper.java:35-39, 65`). A caller or a subclass can
  therefore add or remove targets without `addTarget`, so without `ok` and
  `open`. The model changes the list only through `addTarget` and
  `clearTargets`. "One entry per registration" in `Registry.GetTargetList`,
  and the `Registry.Registered` invariant kept by
  `Registry.AddTargetKeepsRegistered` and `Registry.BroadcastKeepsRegistered`,
  hold only for such lists.
- A null `MessageEvent` passed to `send` or `broadcast`: a `MessageEvent` is
  always a built event. In the code, `messageEvent.toString()` throws a
  `NullPointerException` inside `send`'s `try` (`SSEHelper.java:123-128`),
  and the catch swallows it. Every target then gets nothing, nothing is
  thrown, and `broadcast` returns the list. That is the same result as every
  write failing, with `fails` holding every position.
- A null `EventTarget` passed to `addTarget(EventTarget)`: a target is always
  a value in the heap. In the code, `eventTarget.ok()` throws a
  `NullPointerException` before anything changes (`SSEHelper.java:46`). The
  exception reaches the caller and the list stays as it was.
- `addTarget(HttpServletRequest)` and the `EventTarget(HttpServletRequest)`
  constructor: starting the asynchronous context, its zero timeout and the
  listener's registration belong to the servlet container.
  `EventTargets.NewEventTarget` is the state they leave behind.
- `SSEBroadcastServlet`: it only passes `doGet` to `addTarget` and its own
  `broadcast` to the helper's, and has no logic of its own. The servlet is not
  part of this model.
- `getAsyncResponse` and `getAsyncResponseStream`: these are accessors into
  the container. The container refusing the response is `ok`'s failure
  input. A failure to get the stream is part of a write's failure input.
- `onTimeout`, `onError` and `onStartAsync`: they have empty bodies. The
  console output of `onComplete` and the stack trace printed by `broadcast`
  are not modelled.
- Concurrency: the `CopyOnWriteArrayList` lets other threads add to the list
  during a broadcast or a clear. The model is sequential. An iteration runs
  over a snapshot of the list taken at its start, which is what the
  list's iterator gives.
- Bytes and flushing: the stream is a list of the strings printed to it,
  without their UTF-8 encoding, and flushes are not modelled.
- Partial writes: a write either prints its whole string or fails and prints
  nothing.
- Exceptions from `AsyncContext.complete()`: `clearTargets` swallows them,
  and the target's state is then the same as after a normal `close`. A
  direct `close` call that throws is not modelled separately.
- The removal branch of `broadcast`: it is not modelled, because
  `send(MessageEvent)` never lets an exception out, so that branch cannot run.
- A full event-stream parser: the decoder in `frames.dfy` cuts lines at line
  feeds only. It is the partner of `build`, so carriage-return line ends,
  comments and unknown fields are left out.

=== FILE: carriage_returns.dfy ===
/**
 * Carriage returns in a frame.
 *
 * `build` deletes line feeds from the event name and the id and splits the
 * data at line feeds, but it leaves carriage returns where they are. The
 * `text/event-stream` format of section 9.2 of the WHATWG HTML Living
 * Standard ends a line at a carriage return, at a line feed, and at the pair
 * of the two. So a carriage return that `build` lets through starts a new
 * line for a client. For example, the event name "a\rb" reaches the client as
 * the event name "a" followed by an unknown field "b".
 *
 * `NameCarriageReturnReachesFrame` states this for the frame `build` writes.
 * `BuildStrict` treats every line break the way `build` treats a line feed,
 * and no frame it writes contains a carriage return.
 */
module CarriageReturns {
  import opened Wrappers
  import opened JavaText
  import opened Decimal
  import opened MessageEvents
  import Frames

  const CR: char := '\r'

  /** Every line break, a carriage return and line feed pair included, written as one line feed. */
  function NormalizeBreaks(s: string): (r: string)
    ensures CR !in r
    ensures |r| <= |s|
    decreases |s|
  {
    if s == [] then []
    else if s[0] == CR then
      [LF] + NormalizeBreaks(if |s| > 1 && s[1] == LF then s[2..] else s[1..])
    else [s[0]] + NormalizeBreaks(s[1..])
  }

  /** A nullable name or id with its carriage returns deleted. */
  function StripCR(value: Option<string>): (r: Option<string>)
    ensures r.Some? <==> value.Some?
    ensures r.Some? ==> CR !in r.value
  {
    match value
    case None => None
    case Some(v) => Some(RemoveChar(v, CR))
  }

  /** A nullable payload with every line break written as a line feed. */
  function NormalizeData(data: Option<string>): (r: Option<string>)
    ensures r.Some? <==> data.Some?
    ensures r.Some? ==> CR !in r.value
  {
    match data
    case None => None
    case Some(d) => Some(NormalizeBreaks(d))
  }

  /**
   * The frame `build` was evidently meant to write: a name or id loses every
   * line break, not only its line feeds, and the payload is split at every
   * line break.
   */
  function BuildStrict(event: Option<string>, data: Option<string>, retry: Option<Int32>, id: Option<string>): string
  {
    Build(StripCR(event), NormalizeData(data), retry, StripCR(id))
  }

  lemma {:induction false} NormalizeBreaksIdentity(s: string)
    requires CR !in s
    ensures NormalizeBreaks(s) == s
    decreases |s|
  {
    if s != [] {
      assert s[0] != CR && CR !in s[1..];
      NormalizeBreaksIdentity(s[1..]);
      assert [s[0]] + s[1..] == s;
    }
  }

  /** On input without carriage returns the strict frame is the frame `build` writes. */
  lemma BuildStrictAgrees(event: Option<string>, data: Option<string>, retry: Option<Int32>, id: Option<string>)
    requires event.Some? ==> CR !in event.value
    requires data.Some? ==> CR !in data.value
    requires id.Some? ==> CR !in id.value
    ensures BuildStrict(event, data, retry, id) == Build(event, data, retry, id)
  {
    if data.Some? { NormalizeBreaksIdentity(data.value); }
  }

  /** A strict frame decodes to its name and id without line breaks, and its payload cut at every line break. */
  lemma DecodeBuildStrict(event: Option<string>, data: Option<string>, retry: Option<Int32>, id: Option<string>)
    ensures Frames.DecodeFrame(BuildStrict(event, data, retry, id))
         == Some(Frames.Expected(StripCR(event), NormalizeData(data), retry, StripCR(id)))
  {
    Frames.DecodeBuild(StripCR(event), NormalizeData(data), retry, StripCR(id));
  }

  // As written: a carriage return in the name or the id reaches the frame.

  /** Deleting line feeds keeps every carriage return. */
  lemma RemoveCharKeepsCR(s: string)
    requires CR in s
    ensures CR in RemoveChar(s, LF)
  {
    RemoveCharKeepsOthers(s, LF, CR);
    assert CR in multiset(s);
  }

  /** A carriage return in the event name or the id of a `MessageEvent` is written into its frame. */
  lemma NameCarriageReturnReachesFrame(event: Option<string>, data: Option<string>, retry: Option<Int32>, id: Option<string>)
    requires (event.Some? && CR in event.value) || (id.Some? && CR in id.value)
    ensures CR in Build(event, data, retry, id)
  {
    var frame := Build(event, data, retry, id);
    var head := EventPart(event) + DataPart(data) + RetryPart(retry);
    assert frame == head + IdPart(id) + [LF];
    if event.Some? && CR in event.value {
      RemoveCharKeepsCR(event.value);
      assert CR in EventPart(event);
      assert CR in head;
    } else {
      RemoveCharKeepsCR(id.value);
      assert CR in IdPart(id);
    }
  }

  // Corrected: a strict frame has no carriage return.

  lemma RemoveCharAvoidsCR(s: string)
    requires CR !in s
    ensures CR !in RemoveChar(s, LF)
  {
    RemoveCharKeepsOthers(s, LF, CR);
    assert multiset(RemoveChar(s, LF))[CR] == 0;
  }

  /** No raw segment of a string without carriage returns contains one. */
  lemma {:induction false} RawSplitAvoidsCR(s: string)
    requires CR !in s
    ensures forall k :: 0 <= k < |RawSplit(s)| ==> CR !in RawSplit(s)[k]
    decreases |s|
  {
    if s != [] {
      assert CR !in s[1..];
      RawSplitAvoidsCR(s[1..]);
    }
  }

  lemma JavaSplitAvoidsCR(s: string)
    requires CR !in s
    ensures forall k :: 0 <= k < |JavaSplit(s)| ==> CR !in JavaSplit(s)[k]
  {
    if LF in s {
      RawSplitAvoidsCR(s);
      var raw := RawSplit(s);
      var r := DropTrailing(raw, []);
      assert r <= raw;
      forall k | 0 <= k < |r|
        ensures CR !in r[k]
      {
        assert r[k] == raw[k];
      }
    }
  }

  lemma {:induction false} DataLinesAvoidCR(segments: seq<string>)
    requires forall k :: 0 <= k < |segments| ==> CR !in segments[k]
    ensures CR !in DataLines(segments)
    decreases |segments|
  {
    if segments != [] {
      DataLinesAvoidCR(segments[1..]);
      assert CR !in DataPrefix;
      assert CR !in segments[0];
      assert CR !in FieldLine(DataPrefix, segments[0]);
    }
  }

  /** A frame built from fields without carriage returns contains none. */
  lemma BuildAvoidsCR(event: Option<string>, data: Option<string>, retry: Option<Int32>, id: Option<string>)
    requires event.Some? ==> CR !in event.value
    requires data.Some? ==> CR !in data.value
    requires id.Some? ==> CR !in id.value
    ensures CR !in Build(event, data, retry, id)
  {
    assert CR !in EventPart(event) by {
      if event.Some? {
        RemoveCharAvoidsCR(event.value);
        assert CR !in EventPrefix;
      }
    }
    assert CR !in DataPart(data) by {
      if data.Some? {
        JavaSplitAvoidsCR(data.value);
        DataLinesAvoidCR(JavaSplit(data.value));
      }
    }
    assert CR !in RetryPart(retry) by {
      if retry.Some? {
        DecimalChars(retry.value);
        assert CR !in RetryPrefix;
      }
    }
    assert CR !in IdPart(id) by {
      if id.Some? {
        RemoveCharAvoidsCR(id.value);
        assert CR !in IdPrefix;
      }
    }
  }

  /** Whatever the fields, the strict frame has no carriage return: its only line breaks are its line feeds. */
  lemma BuildStrictHasNoCR(event: Option<string>, data: Option<string>, retry: Option<Int32>, id: Option<string>)
    ensures CR !in BuildStrict(event, data, retry, id)
  {
    BuildAvoidsCR(StripCR(event), NormalizeData(data), retry, StripCR(id));
  }
}

=== FILE: decimal.dfy ===
/**
 * Decimal rendering of a `java.lang.Integer`, as `StringBuilder.append(Object)`
 * produces it through `Integer.toString`: an optional minus sign followed by
 * the digits of the magnitude, without leading zeros.
 */
module Decimal {
  import opened Wrappers

  /** The values a `java.lang.Integer` can hold. */
  type Int32 = x: int | -0x8000_0000 <= x < 0x8000_0000

  predicate IsDigit(c: char)
  {
    '0' <= c <= '9'
  }

  function DigitChar(d: nat): (c: char)
    requires d < 10
    ensures IsDigit(c)
  {
    ('0' as int + d) as char
  }

  function DigitValue(c: char): (d: nat)
    requires IsDigit(c)
    ensures d < 10
  {
    c as int - '0' as int
  }

  /** The decimal digits of `n`, most significant first. */
  function NatToDecimal(n: nat): (r: string)
    ensures |r| > 0
    ensures forall k :: 0 <= k < |r| ==> IsDigit(r[k])
    ensures r[0] == '0' ==> r == "0"
    decreases n
  {
    if n < 10 then [DigitChar(n)] else NatToDecimal(n / 10) + [DigitChar(n % 10)]
  }

  /** `Integer.toString(n)`. */
  function IntToDecimal(n: int): (r: string)
    ensures |r| > 0
    ensures r[0] == '-' <==> n < 0
    ensures forall k :: (if n < 0 then 1 else 0) <= k < |r| ==> IsDigit(r[k])
  {
    if n < 0 then "-" + NatToDecimal(-n) else NatToDecimal(n)
  }

  /** `Integer.toString` writes nothing but a minus sign and decimal digits. */
  lemma DecimalChars(n: int)
    ensures forall c :: c in IntToDecimal(n) ==> c == '-' || IsDigit(c)
  {
    var r := IntToDecimal(n);
    forall k | 0 <= k < |r|
      ensures r[k] == '-' || IsDigit(r[k])
    {
      if k == 0 && n < 0 {
        assert r[k] == '-';
      }
    }
  }

  /** Reads a non-empty run of decimal digits. */
  function ParseDigits(s: string): Option<nat>
    decreases |s|
  {
    if |s| == 0 || !IsDigit(s[|s| - 1]) then None
    else if |s| == 1 then Some(DigitValue(s[0]))
    else
      match ParseDigits(s[..|s| - 1])
      case None => None
      case Some(v) => Some(10 * v + DigitValue(s[|s| - 1]))
  }

  /** Reads an optionally negative decimal integer. */
  function ParseInt(s: string): Option<int>
  {
    if |s| > 0 && s[0] == '-' then
      match ParseDigits(s[1..])
      case None => None
      case Some(v) => Some(0 - v as int)
    else
      match ParseDigits(s)
      case None => None
      case Some(v) => Some(v)
  }

  lemma {:induction false} ParseNatToDecimal(n: nat)
    ensures ParseDigits(NatToDecimal(n)) == Some(n)
    decreases n
  {
    if n >= 10 {
      var s := NatToDecimal(n);
      ParseNatToDecimal(n / 10);
      assert s[..|s| - 1] == NatToDecimal(n / 10);
    }
  }

  /** The rendering of every integer reads back as that integer. */
  lemma ParseIntToDecimal(n: int)
    ensures ParseInt(IntToDecimal(n)) == Some(n)
  {
    if n < 0 {
      ParseNatToDecimal(-n);
      assert IntToDecimal(n)[1..] == NatToDecimal(-n);
    } else {
      ParseNatToDecimal(n);
    }
  }
}

=== FILE: event_target.dfy ===
/**
 * `SSEHelper.EventTarget`: one client connection, held open through the
 * servlet container's asynchronous context.
 *
 * The container is abstract here. A target is its response (status and
 * headers, as `ok` records them), the frames printed to its output stream so
 * far, how many times `AsyncContext.complete()` has been called, and the
 * `mIsCompleted` flag. Whether a write to the stream fails is an input to the
 * operation that writes; a failed write adds nothing to the stream. A Java
 * method that throws returns its target together with `Threw`, because the
 * changes made before the exception stay.
 */
module EventTargets {
  import opened Wrappers
  import opened JavaText
  import opened MessageEvents
  import Frames

  const StatusOk: int := 200
  const EventStream: string := "text/event-stream"
  const Utf8: string := "UTF-8"
  const CacheControl: string := "Cache-Control"
  const NoCache: string := "no-cache"
  const Connection: string := "Connection"
  const KeepAlive: string := "keep-alive"

  /** The handshake `open` prints. */
  const OpenFrame: string := "event: open\n\n"

  /** What `ok` can set on the `HttpServletResponse`. */
  datatype Response = Response(
    status: int,
    contentType: Option<string>,
    characterEncoding: Option<string>,
    headers: map<string, string>)

  /** The connection: its response, every string printed to its output stream in order, and the `complete()` calls. */
  datatype Transport = Transport(response: Response, written: seq<string>, completeCalls: nat)

  datatype EventTarget = EventTarget(transport: Transport, isCompleted: bool)

  /** How a call that may throw ended: an `IOException` from a write, or the container refusing the response. */
  datatype Outcome = Normal | Threw

  /** The constructor: a fresh asynchronous context with nothing written and nothing completed. */
  function NewEventTarget(response: Response): (t: EventTarget)
    ensures t.transport.written == [] && t.transport.completeCalls == 0 && !t.isCompleted
    ensures t.transport.response == response
  {
    EventTarget(Transport(response, [], 0), false)
  }

  /** A target whose stream has the given frames appended, and nothing else changed. */
  function Append(t: EventTarget, frames: seq<string>): EventTarget
  {
    t.(transport := t.transport.(written := t.transport.written + frames))
  }

  /** The setters of `ok`: status 200, an event stream in UTF-8, no caching, a kept-alive connection. */
  function Ok(t: EventTarget): (r: EventTarget)
    ensures r.transport.response.status == StatusOk
    ensures r.transport.response.contentType == Some(EventStream)
    ensures r.transport.response.characterEncoding == Some(Utf8)
    ensures CacheControl in r.transport.response.headers && r.transport.response.headers[CacheControl] == NoCache
    ensures Connection in r.transport.response.headers && r.transport.response.headers[Connection] == KeepAlive
    ensures forall h :: h in r.transport.response.headers <==> h in t.transport.response.headers || h == CacheControl || h == Connection
    ensures forall h :: h in t.transport.response.headers && h != CacheControl && h != Connection ==>
      r.transport.response.headers[h] == t.transport.response.headers[h]
    ensures r.transport.written == t.transport.written
    ensures r.transport.completeCalls == t.transport.completeCalls && r.isCompleted == t.isCompleted
  {
    var res := t.transport.response;
    var res' := Response(StatusOk, Some(EventStream), Some(Utf8), res.headers[CacheControl := NoCache][Connection := KeepAlive]);
    t.(transport := t.transport.(response := res'))
  }

  /**
   * `ok` as it is called: it first asks the asynchronous context for the
   * response, which a container may refuse (Servlet 3.1 throws
   * `IllegalStateException` once `complete()` has run). A refusal throws
   * before any setter runs, so nothing changes; otherwise the setters of `Ok`
   * apply.
   */
  function TryOk(t: EventTarget, fails: bool): (r: (EventTarget, Outcome))
    ensures r.1 == Threw <==> fails
    ensures fails ==> r.0 == t
    ensures !fails ==> r.0 == Ok(t)
  {
    if fails then (t, Threw) else (Ok(t), Normal)
  }

  /** `open`: prints the handshake, or throws when the stream cannot be written, changing nothing. */
  function Open(t: EventTarget, fails: bool): (r: (EventTarget, Outcome))
    ensures r.1 == Threw <==> fails
    ensures fails ==> r.0 == t
    ensures !fails ==> r.0 == Append(t, [OpenFrame])
  {
    if fails then (t, Threw) else (Append(t, [OpenFrame]), Normal)
  }

  /** `send(MessageEvent)`: prints the event's cached frame; a failure is swallowed, so it never throws. */
  function Send(t: EventTarget, m: MessageEvent, fails: bool): (r: EventTarget)
    ensures r.transport.written == t.transport.written + (if fails then [] else [ToString(m)])
    ensures r.transport.response == t.transport.response
    ensures r.transport.completeCalls == t.transport.completeCalls && r.isCompleted == t.isCompleted
  {
    if fails then t else Append(t, [ToString(m)])
  }

  /** `send(String, String)`: prints the frame of a new two-field event; here an `IOException` reaches the caller. */
  function SendPair(t: EventTarget, event: Option<string>, data: Option<string>, fails: bool): (r: (EventTarget, Outcome))
    ensures r.1 == Threw <==> fails
    ensures fails ==> r.0 == t
    ensures !fails ==> r.0.transport.written == t.transport.written + [Build(event, data, None, None)]
    ensures r.0.transport.response == t.transport.response
    ensures r.0.transport.completeCalls == t.transport.completeCalls && r.0.isCompleted == t.isCompleted
  {
    if fails then (t, Threw) else (Append(t, [ToString(NewMessageEvent2(event, data))]), Normal)
  }

  /** `close`: completes the asynchronous context unless the target is already completed. */
  function Close(t: EventTarget): (r: EventTarget)
    ensures r.isCompleted
    ensures r.transport.completeCalls == t.transport.completeCalls + (if t.isCompleted then 0 else 1)
    ensures r.transport.written == t.transport.written && r.transport.response == t.transport.response
  {
    if !t.isCompleted then
      t.(isCompleted := true, transport := t.transport.(completeCalls := t.transport.completeCalls + 1))
    else
      t
  }

  /** `AsyncListenerImpl.onComplete`: the container reports the context completed. */
  function OnComplete(t: EventTarget): (r: EventTarget)
    ensures r.isCompleted && r.transport == t.transport
  {
    t.(isCompleted := true)
  }

  /**
   * The handshake is the frame of an event named `open` with no data, and
   * decodes as one. The name is a parameter pinned to its literal so that the
   * solver reasons about the name as a value, not character by character.
   */
  lemma OpenFrameIsOpenEvent(name: string)
    requires name == "open"
    ensures OpenFrame == Build(Some(name), None, None, None)
    ensures Frames.DecodeFrame(OpenFrame) == Some(Frames.Fields(Some(name), [], None, None))
  {
    assert LF !in name;
    var line := EventPrefix + name + [LF];
    assert EventPart(Some(name)) == line;
    assert Build(Some(name), None, None, None) == line + [LF];
    assert OpenFrame == line + [LF];
    Frames.DecodeBuild(Some(name), None, None, None);
  }

  /** `ok` twice is `ok` once. */
  lemma OkIdempotent(t: EventTarget)
    ensures Ok(Ok(t)) == Ok(t)
  {
    var h := Ok(t).transport.response.headers;
    var h' := Ok(Ok(t)).transport.response.headers;
    assert h'.Keys == h.Keys;
    assert forall k :: k in h ==> h'[k] == h[k];
  }

  /** `send(String, String)` writes what `send(MessageEvent)` writes for the two-field event; only the outcome of a failure differs. */
  lemma SendPairIsSend(t: EventTarget, event: Option<string>, data: Option<string>, fails: bool)
    ensures SendPair(t, event, data, fails).0 == Send(t, NewMessageEvent2(event, data), fails)
    ensures SendPair(t, event, data, fails).1 == (if fails then Threw else Normal)
  {
  }

  /** Sending does not look at `mIsCompleted`: a closed target is written to exactly as an open one. */
  lemma SendIgnoresCompletion(t: EventTarget, m: MessageEvent, fails: bool)
    ensures Send(Close(t), m, fails) == Close(Send(t, m, fails))
    ensures Send(OnComplete(t), m, fails) == OnComplete(Send(t, m, fails))
  {
  }

  /** A second `close` changes nothing. */
  lemma CloseIdempotent(t: EventTarget)
    ensures Close(Close(t)) == Close(t)
  {
  }

  /** Once the container has reported completion, `close` does not call `complete()` again. */
  lemma CloseAfterOnComplete(t: EventTarget)
    ensures Close(OnComplete(t)) == OnComplete(t)
  {
  }

  /** One call on a target, with the write outcomes it is given. */
  datatype Op =
    | OkOp(okFails: bool)
    | OpenOp(openFails: bool)
    | SendOp(m: MessageEvent, sendFails: bool)
    | SendPairOp(event: Option<string>, data: Option<string>, pairFails: bool)
    | CloseOp
    | CompleteOp

  function Step(t: EventTarget, op: Op): EventTarget
  {
    match op
    case OkOp(f) => TryOk(t, f).0
    case OpenOp(f) => Open(t, f).0
    case SendOp(m, f) => Send(t, m, f)
    case SendPairOp(e, d, f) => SendPair(t, e, d, f).0
    case CloseOp => Close(t)
    case CompleteOp => OnComplete(t)
  }

  /** The target after the calls in order; a call that threw leaves its state for the next. */
  function Run(t: EventTarget, ops: seq<Op>): EventTarget
    decreases |ops|
  {
    if ops == [] then t else Run(Step(t, ops[0]), ops[1..])
  }

  /** `complete()` has been called at most once, and only on a target marked completed. */
  predicate CompletedOnce(t: EventTarget)
  {
    t.transport.completeCalls <= 1 && (t.transport.completeCalls == 1 ==> t.isCompleted)
  }

  lemma StepKeepsCompletedOnce(t: EventTarget, op: Op)
    requires CompletedOnce(t)
    ensures CompletedOnce(Step(t, op))
    ensures t.transport.written <= Step(t, op).transport.written
  {
  }

  /** Whatever the calls and their failures, `complete()` runs at most once and the stream only grows. */
  lemma {:induction false} RunKeepsCompletedOnce(t: EventTarget, ops: seq<Op>)
    requires CompletedOnce(t)
    ensures CompletedOnce(Run(t, ops))
    ensures t.transport.written <= Run(t, ops).transport.written
    decreases |ops|
  {
    if ops != [] {
      StepKeepsCompletedOnce(t, ops[0]);
      RunKeepsCompletedOnce(Step(t, ops[0]), ops[1..]);
    }
  }

  /** A new target never has `complete()` called twice. */
  lemma NewTargetCompletesOnce(response: Response, ops: seq<Op>)
    ensures Run(NewEventTarget(response), ops).transport.completeCalls <= 1
  {
    RunKeepsCompletedOnce(NewEventTarget(response), ops);
  }
}

=== FILE: examples_frames.dfy ===
/** Concrete frames and splits, worked through the definitions. */
module FrameExamples {
  import opened Wrappers
  import opened JavaText
  import opened Decimal
  import opened MessageEvents

  // Shapes of `split("\n")` and of the frame parts, for any strings.

  /** Cutting at a line feed that follows a line-feed-free head. */
  lemma SplitOnce(a: string, b: string)
    requires LF !in a
    ensures LF in a + [LF] + b
    ensures RawSplit(a + [LF] + b) == [a] + RawSplit(b)
  {
    RawSplitCons(a, b);
    assert (a + [LF] + b)[|a|] == LF;
  }

  /** Two line-feed-free lines joined by a line feed split into those two lines. */
  lemma SplitPair(a: string, b: string)
    requires LF !in a && LF !in b && b != []
    ensures JavaSplit(a + [LF] + b) == [a, b]
  {
    SplitOnce(a, b);
    RawSplitNoLF(b);
  }

  /** A trailing line feed after a non-empty line is dropped with its empty segment. */
  lemma SplitLineAndLineFeed(a: string)
    requires LF !in a && a != []
    ensures JavaSplit(a + [LF]) == [a]
  {
    assert a + [LF] == a + [LF] + [];
    SplitOnce(a, []);
    assert RawSplit(a + [LF]) == [a, []];
    assert DropTrailing([a, []], []) == DropTrailing([a], []);
  }

  lemma RawSplitLeadingLineFeed(b: string)
    requires LF !in b
    ensures RawSplit([LF] + b) == [[], b]
  {
    assert ([LF] + b)[0] == LF && ([LF] + b)[1..] == b;
    RawSplitNoLF(b);
  }

  lemma RawSplitAroundEmptyLine(a: string, b: string)
    requires LF !in a && LF !in b
    ensures LF in a + [LF] + [LF] + b
    ensures RawSplit(a + [LF] + [LF] + b) == [a, [], b]
  {
    var c := [LF] + b;
    ConcatAssoc(a + [LF], [LF], b);
    SplitOnce(a, c);
    calc {
      RawSplit(a + [LF] + [LF] + b);
      RawSplit(a + [LF] + c);
      [a] + RawSplit(c);
      { RawSplitLeadingLineFeed(b); }
      [a] + [[], b];
      [a, [], b];
    }
  }

  /** An empty line between two lines survives as an empty segment. */
  lemma SplitAroundEmptyLine(a: string, b: string)
    requires LF !in a && LF !in b && b != []
    ensures JavaSplit(a + [LF] + [LF] + b) == [a, [], b]
  {
    var s := a + [LF] + [LF] + b;
    RawSplitAroundEmptyLine(a, b);
    calc {
      JavaSplit(s);
      DropTrailing(RawSplit(s), []);
      DropTrailing([a, [], b], []);
      [a, [], b];
    }
  }

  /** A payload without line feeds is a single `data: ` line. */
  lemma OneDataLine(d: string)
    requires LF !in d
    ensures DataPart(Some(d)) == FieldLine(DataPrefix, d)
  {
    assert JavaSplit(d) == [d];
    assert DataLines([d]) == FieldLine(DataPrefix, d) + DataLines([]);
  }

  lemma TwoDataLines(a: string, b: string)
    requires LF !in a && LF !in b && b != []
    ensures DataPart(Some(a + [LF] + b)) == FieldLine(DataPrefix, a) + FieldLine(DataPrefix, b)
  {
    SplitPair(a, b);
    assert DataLines([a, b]) == FieldLine(DataPrefix, a) + DataLines([b]);
    assert DataLines([b]) == FieldLine(DataPrefix, b) + DataLines([]);
  }

  /** A name without line feeds is written as it is. */
  lemma NameLine(prefix: string, name: string)
    requires LF !in name
    ensures FieldLine(prefix, RemoveChar(name, LF)) == FieldLine(prefix, name)
  {
  }

  lemma AbsentParts()
    ensures EventPart(None) == [] && DataPart(None) == [] && RetryPart(None) == [] && IdPart(None) == []
  {
  }

  // The edge cases of `split("\n")` that decide which `data: ` lines appear.

  lemma SplitEmpty()
    ensures JavaSplit("") == [""]
  {
  }

  lemma SplitOnlyLineFeeds()
    ensures JavaSplit("\n") == []
    ensures JavaSplit("\n\n") == []
  {
  }

  lemma SplitTrailingLineFeed()
    ensures JavaSplit("a\n") == ["a"]
  {
    var a := "a";
    assert "a\n" == a + [LF];
    SplitLineAndLineFeed(a);
  }

  lemma SplitLeadingLineFeed()
    ensures JavaSplit("\na") == ["", "a"]
  {
    var b := "a";
    assert "\na" == [] + [LF] + b;
    SplitPair([], b);
  }

  lemma SplitInnerEmptyLine()
    ensures JavaSplit("a\n\nb") == ["a", "", "b"]
  {
    var a, b := "a", "b";
    assert "a\n\nb" == a + [LF] + [LF] + b;
    SplitAroundEmptyLine(a, b);
  }

  lemma SplitKeepsCarriageReturn()
    ensures JavaSplit("a\r\nb") == ["a\r", "b"]
  {
    var a, b := "a\r", "b";
    assert "a\r\nb" == a + [LF] + b;
    SplitPair(a, b);
  }

  // Frame shapes, for any field values. Each goes part by part from the
  // definition of `Build`.

  lemma BuildParts(event: Option<string>, data: Option<string>, retry: Option<Int32>, id: Option<string>)
    ensures Build(event, data, retry, id) == EventPart(event) + DataPart(data) + RetryPart(retry) + IdPart(id) + [LF]
  {
  }

  /** An event name and a one-line payload. */
  lemma NameAndLineShape(e: string, d: string)
    requires LF !in e && LF !in d
    ensures Build(Some(e), Some(d), None, None) == FieldLine(EventPrefix, e) + FieldLine(DataPrefix, d) + [LF]
  {
    var p, q := FieldLine(EventPrefix, e), FieldLine(DataPrefix, d);
    calc {
      Build(Some(e), Some(d), None, None);
      { BuildParts(Some(e), Some(d), None, None); AbsentParts(); }
      EventPart(Some(e)) + DataPart(Some(d)) + [] + [] + [LF];
      { NameLine(EventPrefix, e); OneDataLine(d); }
      p + q + [] + [] + [LF];
      { ConcatEmpty(p + q, []); ConcatEmpty(p + q, [LF]); }
      p + q + [LF];
    }
  }

  /** An event name and a two-line payload: two `data: ` lines, in order. */
  lemma NameAndTwoLinesShape(e: string, a: string, b: string)
    requires LF !in e && LF !in a && LF !in b && b != []
    ensures Build(Some(e), Some(a + [LF] + b), None, None)
         == FieldLine(EventPrefix, e) + (FieldLine(DataPrefix, a) + FieldLine(DataPrefix, b)) + [LF]
  {
    var p, q := FieldLine(EventPrefix, e), FieldLine(DataPrefix, a) + FieldLine(DataPrefix, b);
    calc {
      Build(Some(e), Some(a + [LF] + b), None, None);
      { BuildParts(Some(e), Some(a + [LF] + b), None, None); AbsentParts(); }
      EventPart(Some(e)) + DataPart(Some(a + [LF] + b)) + [] + [] + [LF];
      { NameLine(EventPrefix, e); TwoDataLines(a, b); }
      p + q + [] + [] + [LF];
      { ConcatEmpty(p + q, []); ConcatEmpty(p + q, [LF]); }
      p + q + [LF];
    }
  }

  lemma RemoveCharInside(a: string, b: string)
    requires LF !in a && LF !in b
    ensures RemoveChar(a + [LF] + b, LF) == a + b
  {
    RemoveCharConcat(a + [LF], b, LF);
    RemoveCharConcat(a, [LF], LF);
  }

  /** A line feed inside the event name disappears; the name stays one line. */
  lemma NameWithLineFeedShape(a: string, b: string)
    requires LF !in a && LF !in b
    ensures Build(Some(a + [LF] + b), None, None, None) == FieldLine(EventPrefix, a + b) + [LF]
  {
    var p := FieldLine(EventPrefix, a + b);
    calc {
      Build(Some(a + [LF] + b), None, None, None);
      { BuildParts(Some(a + [LF] + b), None, None, None); AbsentParts(); }
      EventPart(Some(a + [LF] + b)) + [] + [] + [] + [LF];
      { RemoveCharInside(a, b); }
      p + [] + [] + [] + [LF];
      { ConcatEmpty(p, []); ConcatEmpty(p, [LF]); }
      p + [LF];
    }
  }

  /** A payload line, a retry value and an id, with no event name. */
  lemma DataRetryIdShape(d: string, n: Int32, i: string)
    requires LF !in d && LF !in i
    ensures Build(None, Some(d), Some(n), Some(i))
         == FieldLine(DataPrefix, d) + FieldLine(RetryPrefix, IntToDecimal(n)) + FieldLine(IdPrefix, i) + [LF]
  {
    var p, q, r := FieldLine(DataPrefix, d), FieldLine(RetryPrefix, IntToDecimal(n)), FieldLine(IdPrefix, i);
    calc {
      Build(None, Some(d), Some(n), Some(i));
      { BuildParts(None, Some(d), Some(n), Some(i)); AbsentParts(); }
      [] + DataPart(Some(d)) + RetryPart(Some(n)) + IdPart(Some(i)) + [LF];
      { OneDataLine(d); NameLine(IdPrefix, i); }
      [] + p + q + r + [LF];
      { ConcatEmpty(p, []); }
      p + q + r + [LF];
    }
  }

  lemma RetryOnlyShape(n: Int32)
    ensures Build(None, None, Some(n), None) == FieldLine(RetryPrefix, IntToDecimal(n)) + [LF]
  {
    var q := FieldLine(RetryPrefix, IntToDecimal(n));
    calc {
      Build(None, None, Some(n), None);
      { BuildParts(None, None, Some(n), None); AbsentParts(); }
      [] + [] + q + [] + [LF];
      { ConcatEmpty(q, []); ConcatEmpty(q, [LF]); }
      q + [LF];
    }
  }

  /** A payload without line feeds, the empty one included, is one `data: ` line. */
  lemma DataOnlyShape(d: string)
    requires LF !in d
    ensures Build(None, Some(d), None, None) == FieldLine(DataPrefix, d) + [LF]
  {
    var p := FieldLine(DataPrefix, d);
    calc {
      Build(None, Some(d), None, None);
      { BuildParts(None, Some(d), None, None); AbsentParts(); }
      [] + DataPart(Some(d)) + [] + [] + [LF];
      { OneDataLine(d); }
      [] + p + [] + [] + [LF];
      { ConcatEmpty(p, []); ConcatEmpty(p, [LF]); }
      p + [LF];
    }
  }

  /** A trailing line feed adds no empty `data: ` line. */
  lemma TrailingLineFeedShape(a: string)
    requires LF !in a && a != []
    ensures Build(None, Some(a + [LF]), None, None) == FieldLine(DataPrefix, a) + [LF]
  {
    var p := FieldLine(DataPrefix, a);
    calc {
      Build(None, Some(a + [LF]), None, None);
      { BuildParts(None, Some(a + [LF]), None, None); AbsentParts(); }
      [] + DataPart(Some(a + [LF])) + [] + [] + [LF];
      { SplitLineAndLineFeed(a); assert DataLines([a]) == p + DataLines([]); }
      [] + p + [] + [] + [LF];
      { ConcatEmpty(p, []); ConcatEmpty(p, [LF]); }
      p + [LF];
    }
  }

  /** A payload of line feeds only gives no `data: ` line at all: the frame of no fields. */
  lemma LineFeedsOnlyShape(d: string)
    requires d != [] && forall k :: 0 <= k < |d| ==> d[k] == LF
    ensures Build(None, Some(d), None, None) == [LF] == Build(None, None, None, None)
  {
    JavaSplitEmpty(d);
    BuildParts(None, Some(d), None, None);
    AbsentParts();
  }

  /** An event name and an id with a line feed inside. */
  lemma NameAndIdShape(e: string, a: string, b: string)
    requires LF !in e && LF !in a && LF !in b
    ensures Build(Some(e), None, None, Some(a + [LF] + b)) == FieldLine(EventPrefix, e) + FieldLine(IdPrefix, a + b) + [LF]
  {
    var p, r := FieldLine(EventPrefix, e), FieldLine(IdPrefix, a + b);
    calc {
      Build(Some(e), None, None, Some(a + [LF] + b));
      { BuildParts(Some(e), None, None, Some(a + [LF] + b)); AbsentParts(); }
      EventPart(Some(e)) + [] + [] + IdPart(Some(a + [LF] + b)) + [LF];
      { NameLine(EventPrefix, e); RemoveCharInside(a, b); }
      p + [] + [] + r + [LF];
      { ConcatEmpty(p, []); }
      p + r + [LF];
    }
  }

  // Concrete frames. Each example binds its literals to parameters and goes
  // through a shape above, the text of each line, and the joined text, one
  // step at a time, so that the verifier never evaluates the functions on
  // the literal text.

  /** An event name and a one-line payload. */
  lemma BuildEventAndData(e: string, d: string)
    requires e == "update" && d == "hello"
    ensures Build(Some(e), Some(d), None, None) == "event: update\ndata: hello\n\n"
  {
    calc {
      Build(Some(e), Some(d), None, None);
      { EventAndDataLines(e, d); NameAndLineShape(e, d); }
      FieldLine(EventPrefix, e) + FieldLine(DataPrefix, d) + [LF];
      { EventAndDataLines(e, d); }
      "event: update\n" + "data: hello\n" + "\n";
      "event: update\ndata: hello\n\n";
    }
  }

  lemma EventAndDataLines(e: string, d: string)
    requires e == "update" && d == "hello"
    ensures LF !in e && LF !in d
    ensures FieldLine(EventPrefix, e) == "event: update\n" && FieldLine(DataPrefix, d) == "data: hello\n"
  {
  }

  /** A two-line payload gives two `data: ` lines, in order. */
  lemma BuildTwoDataLines(e: string, a: string, b: string)
    requires e == "msg" && a == "line1" && b == "line2"
    ensures Build(Some(e), Some(a + "\n" + b), None, None) == "event: msg\ndata: line1\ndata: line2\n\n"
  {
    calc {
      Build(Some(e), Some(a + "\n" + b), None, None);
      { TwoDataLinesLines(e, a, b); NameAndTwoLinesShape(e, a, b); }
      FieldLine(EventPrefix, e) + (FieldLine(DataPrefix, a) + FieldLine(DataPrefix, b)) + [LF];
      { TwoDataLinesLines(e, a, b); }
      "event: msg\n" + ("data: line1\n" + "data: line2\n") + "\n";
      "event: msg\ndata: line1\ndata: line2\n\n";
    }
  }

  lemma TwoDataLinesLines(e: string, a: string, b: string)
    requires e == "msg" && a == "line1" && b == "line2"
    ensures LF !in e && LF !in a && LF !in b && b != [] && a + "\n" + b == a + [LF] + b
    ensures FieldLine(EventPrefix, e) == "event: msg\n"
    ensures FieldLine(DataPrefix, a) == "data: line1\n" && FieldLine(DataPrefix, b) == "data: line2\n"
  {
  }

  /** A line feed inside the event name is dropped, not turned into a second line. */
  lemma BuildEventWithLineFeed(e: string)
    requires e == "up\ndate"
    ensures Build(Some(e), None, None, None) == "event: update\n\n"
  {
    var a, b := "up", "date";
    calc {
      Build(Some(e), None, None, None);
      { EventWithLineFeedLines(e, a, b); NameWithLineFeedShape(a, b); }
      FieldLine(EventPrefix, a + b) + [LF];
      { EventWithLineFeedLines(e, a, b); }
      "event: update\n" + "\n";
      "event: update\n\n";
    }
  }

  lemma EventWithLineFeedLines(e: string, a: string, b: string)
    requires e == "up\ndate" && a == "up" && b == "date"
    ensures LF !in a && LF !in b && e == a + [LF] + b
    ensures FieldLine(EventPrefix, a + b) == "event: update\n"
  {
  }

  lemma Decimal3000(n: int)
    requires n == 3000
    ensures IntToDecimal(n) == "3000"
  {
    assert NatToDecimal(3) == "3";
    assert NatToDecimal(30) == "30";
    assert NatToDecimal(300) == "300";
  }

  lemma DecimalMinus5(n: int)
    requires n == -5
    ensures IntToDecimal(n) == "-5"
  {
    assert NatToDecimal(5) == "5";
  }

  /** No `event: ` line without a name; the retry value and the id follow the data. */
  lemma BuildDataRetryId(d: string, n: Int32, i: string)
    requires d == "payload" && n == 3000 && i == "42"
    ensures Build(None, Some(d), Some(n), Some(i)) == "data: payload\nretry: 3000\nid: 42\n\n"
  {
    calc {
      Build(None, Some(d), Some(n), Some(i));
      { DataRetryIdLines(d, n, i); DataRetryIdShape(d, n, i); }
      FieldLine(DataPrefix, d) + FieldLine(RetryPrefix, IntToDecimal(n)) + FieldLine(IdPrefix, i) + [LF];
      { DataRetryIdLines(d, n, i); }
      "data: payload\n" + "retry: 3000\n" + "id: 42\n" + "\n";
      "data: payload\nretry: 3000\nid: 42\n\n";
    }
  }

  lemma DataRetryIdLines(d: string, n: Int32, i: string)
    requires d == "payload" && n == 3000 && i == "42"
    ensures LF !in d && LF !in i
    ensures FieldLine(DataPrefix, d) == "data: payload\n" && FieldLine(IdPrefix, i) == "id: 42\n"
    ensures FieldLine(RetryPrefix, IntToDecimal(n)) == "retry: 3000\n"
  {
    Decimal3000(n);
  }

  /** A negative retry value keeps its sign. */
  lemma BuildNegativeRetry(n: Int32)
    requires n == -5
    ensures Build(None, None, Some(n), None) == "retry: -5\n\n"
  {
    calc {
      Build(None, None, Some(n), None);
      { RetryOnlyShape(n); }
      FieldLine(RetryPrefix, IntToDecimal(n)) + [LF];
      { DecimalMinus5(n); }
      "retry: -5\n" + "\n";
      "retry: -5\n\n";
    }
  }

  /** An empty payload still gives one, empty, `data: ` line. */
  lemma BuildEmptyData(d: string)
    requires d == ""
    ensures Build(None, Some(d), None, None) == "data: \n\n"
  {
    calc {
      Build(None, Some(d), None, None);
      { DataOnlyShape(d); }
      FieldLine(DataPrefix, d) + [LF];
      "data: \n" + "\n";
      "data: \n\n";
    }
  }

  /** A trailing line feed adds no empty `data: ` line. */
  lemma BuildTrailingLineFeedData(d: string)
    requires d == "a\n"
    ensures Build(None, Some(d), None, None) == "data: a\n\n"
  {
    var a := "a";
    calc {
      Build(None, Some(d), None, None);
      { assert d == a + [LF]; TrailingLineFeedShape(a); }
      FieldLine(DataPrefix, a) + [LF];
      "data: a\n" + "\n";
      "data: a\n\n";
    }
  }

  /** A payload of only a line feed gives no `data: ` line at all, the same frame as no fields. */
  lemma BuildLineFeedOnlyData(d: string)
    requires d == "\n"
    ensures Build(None, Some(d), None, None) == "\n"
    ensures Build(None, None, None, None) == "\n"
  {
    LineFeedsOnlyShape(d);
  }

  /** A carriage return passes through untouched; only line feeds are removed. */
  lemma BuildKeepsCarriageReturn(e: string, i: string)
    requires e == "a\rb" && i == "x\r\ny"
    ensures Build(Some(e), None, None, Some(i)) == "event: a\rb\nid: x\ry\n\n"
  {
    var a, b := "x\r", "y";
    calc {
      Build(Some(e), None, None, Some(i));
      { CarriageReturnLines(e, i, a, b); NameAndIdShape(e, a, b); }
      FieldLine(EventPrefix, e) + FieldLine(IdPrefix, a + b) + [LF];
      { CarriageReturnLines(e, i, a, b); }
      "event: a\rb\n" + "id: x\ry\n" + "\n";
      "event: a\rb\nid: x\ry\n\n";
    }
  }

  lemma CarriageReturnLines(e: string, i: string, a: string, b: string)
    requires e == "a\rb" && i == "x\r\ny" && a == "x\r" && b == "y"
    ensures LF !in e && LF !in a && LF !in b && i == a + [LF] + b
    ensures FieldLine(EventPrefix, e) == "event: a\rb\n" && FieldLine(IdPrefix, a + b) == "id: x\ry\n"
  {
  }
}

=== FILE: frames.dfy ===
/**
 * Reading a frame back: a decoder for the frames `MessageEvents.Build`
 * produces, independent of how `Build` assembles them, and the round trip
 * between the two.
 *
 * The decoder cuts the frame at every line feed, the only character `Build`
 * removes from the fields or splits them at. It requires the last line to be
 * the blank dispatch line, and then reads an optional `event: ` line, any
 * number of `data: ` lines, an optional `retry: ` line and an optional `id: `
 * line, in that order and nothing else. A carriage return is an ordinary
 * character here; the event-stream format also ends lines at carriage
 * returns, which `Build` lets through (see `CarriageReturns`).
 */
module Frames {
  import opened Wrappers
  import opened JavaText
  import opened Decimal
  import opened MessageEvents

  /** What a frame carries: the event name, the data lines, the retry value and the id. */
  datatype Fields = Fields(event: Option<string>, data: seq<string>, retry: Option<int>, id: Option<string>)

  /** The fields a frame built from these constructor arguments must carry. */
  function Expected(event: Option<string>, data: Option<string>, retry: Option<Int32>, id: Option<string>): Fields
  {
    Fields(StripLF(event), DataSegments(data), retry, StripLF(id))
  }

  function DecodeFrame(s: string): Option<Fields>
  {
    var lines := RawSplit(s);
    var n := |lines|;
    if n < 2 || lines[n - 1] != [] || lines[n - 2] != [] then None
    else DecodeFields(lines[..n - 2])
  }

  function DecodeFields(lines: seq<string>): Option<Fields>
  {
    if |lines| > 0 && EventPrefix <= lines[0] then
      DecodeData(lines[1..], Some(lines[0][|EventPrefix|..]), [])
    else
      DecodeData(lines, None, [])
  }

  function DecodeData(lines: seq<string>, event: Option<string>, data: seq<string>): Option<Fields>
    decreases |lines|
  {
    if |lines| > 0 && DataPrefix <= lines[0] then
      DecodeData(lines[1..], event, data + [lines[0][|DataPrefix|..]])
    else
      DecodeRetry(lines, event, data)
  }

  function DecodeRetry(lines: seq<string>, event: Option<string>, data: seq<string>): Option<Fields>
  {
    if |lines| > 0 && RetryPrefix <= lines[0] then
      match ParseInt(lines[0][|RetryPrefix|..])
      case None => None
      case Some(n) => DecodeId(lines[1..], event, data, Some(n))
    else
      DecodeId(lines, event, data, None)
  }

  function DecodeId(lines: seq<string>, event: Option<string>, data: seq<string>, retry: Option<int>): Option<Fields>
  {
    if |lines| == 0 then Some(Fields(event, data, retry, None))
    else if |lines| == 1 && IdPrefix <= lines[0] then Some(Fields(event, data, retry, Some(lines[0][|IdPrefix|..])))
    else None
  }

  // The frame of `Build` viewed as a list of lines.

  function OptionalLine(prefix: string, value: Option<string>): (r: seq<string>)
    ensures |r| == if value.Some? then 1 else 0
  {
    match value
    case None => []
    case Some(v) => [prefix + v]
  }

  function RetryLines(retry: Option<Int32>): (r: seq<string>)
    ensures |r| == if retry.Some? then 1 else 0
  {
    match retry
    case None => []
    case Some(n) => [RetryPrefix + IntToDecimal(n)]
  }

  function DataFieldLines(segments: seq<string>): (r: seq<string>)
    ensures |r| == |segments|
    ensures forall k :: 0 <= k < |r| ==> r[k] == DataPrefix + segments[k]
  {
    if segments == [] then [] else [DataPrefix + segments[0]] + DataFieldLines(segments[1..])
  }

  /** The field lines of the frame, without line feeds and without the blank line. */
  function FieldLines(event: Option<string>, data: Option<string>, retry: Option<Int32>, id: Option<string>): seq<string>
  {
    OptionalLine(EventPrefix, StripLF(event))
    + (DataFieldLines(DataSegments(data))
       + (RetryLines(retry)
          + OptionalLine(IdPrefix, StripLF(id))))
  }

  /** Lines none of which contains a line feed. */
  predicate NoLineFeeds(lines: seq<string>)
  {
    forall k :: 0 <= k < |lines| ==> LF !in lines[k]
  }

  lemma NoLineFeedsConcat(a: seq<string>, b: seq<string>)
    requires NoLineFeeds(a) && NoLineFeeds(b)
    ensures NoLineFeeds(a + b)
  {
    forall k | 0 <= k < |a + b|
      ensures LF !in (a + b)[k]
    {
      if k < |a| {
        assert (a + b)[k] == a[k];
      } else {
        assert (a + b)[k] == b[k - |a|];
      }
    }
  }

  lemma {:induction false} DataLinesAsLines(segments: seq<string>)
    ensures DataLines(segments) == Unlines(DataFieldLines(segments))
    decreases |segments|
  {
    if segments != [] {
      DataLinesAsLines(segments[1..]);
    }
  }

  lemma EventPartAsLines(event: Option<string>)
    ensures EventPart(event) == Unlines(OptionalLine(EventPrefix, StripLF(event)))
  {
  }

  lemma DataPartAsLines(data: Option<string>)
    ensures DataPart(data) == Unlines(DataFieldLines(DataSegments(data)))
  {
    DataLinesAsLines(DataSegments(data));
  }

  lemma RetryPartAsLines(retry: Option<Int32>)
    ensures RetryPart(retry) == Unlines(RetryLines(retry))
  {
  }

  lemma IdPartAsLines(id: Option<string>)
    ensures IdPart(id) == Unlines(OptionalLine(IdPrefix, StripLF(id)))
  {
  }

  /** Writing four groups of lines one after the other. */
  lemma UnlinesFour(l1: seq<string>, l2: seq<string>, l3: seq<string>, l4: seq<string>)
    ensures Unlines(l1 + (l2 + (l3 + l4)) + [[]])
         == Unlines(l1) + Unlines(l2) + Unlines(l3) + Unlines(l4) + [LF]
  {
    UnlinesConcat(l1 + (l2 + (l3 + l4)), [[]]);
    assert Unlines([[]]) == [LF];
    UnlinesConcat(l1, l2 + (l3 + l4));
    UnlinesConcat(l2, l3 + l4);
    UnlinesConcat(l3, l4);
    ConcatAssoc(Unlines(l1) + Unlines(l2), Unlines(l3), Unlines(l4));
    ConcatAssoc(Unlines(l1), Unlines(l2), Unlines(l3) + Unlines(l4));
  }

  /** `Build` writes exactly the field lines, each followed by a line feed, then the blank line. */
  lemma BuildAsLines(event: Option<string>, data: Option<string>, retry: Option<Int32>, id: Option<string>)
    ensures Build(event, data, retry, id) == Unlines(FieldLines(event, data, retry, id) + [[]])
  {
    EventPartAsLines(event);
    DataPartAsLines(data);
    RetryPartAsLines(retry);
    IdPartAsLines(id);
    UnlinesFour(
      OptionalLine(EventPrefix, StripLF(event)),
      DataFieldLines(DataSegments(data)),
      RetryLines(retry),
      OptionalLine(IdPrefix, StripLF(id)));
  }

  lemma {:induction false} DataFieldLinesNoLF(segments: seq<string>)
    requires NoLineFeeds(segments)
    ensures NoLineFeeds(DataFieldLines(segments))
    decreases |segments|
  {
    if segments != [] {
      DataFieldLinesNoLF(segments[1..]);
      assert LF !in DataPrefix;
      NoLineFeedsConcat([DataPrefix + segments[0]], DataFieldLines(segments[1..]));
    }
  }

  lemma OptionalLineNoLF(prefix: string, value: Option<string>)
    requires LF !in prefix
    requires value.Some? ==> LF !in value.value
    ensures NoLineFeeds(OptionalLine(prefix, value))
  {
  }

  lemma RetryLinesNoLF(retry: Option<Int32>)
    ensures NoLineFeeds(RetryLines(retry))
  {
    if retry.Some? {
      DecimalChars(retry.value);
      assert LF !in RetryPrefix;
    }
  }

  /** No field line contains a line feed: cut at line feeds, each present field is exactly one line. */
  lemma FieldLinesNoLF(event: Option<string>, data: Option<string>, retry: Option<Int32>, id: Option<string>)
    ensures NoLineFeeds(FieldLines(event, data, retry, id))
  {
    var l1 := OptionalLine(EventPrefix, StripLF(event));
    var l2 := DataFieldLines(DataSegments(data));
    var l3 := RetryLines(retry);
    var l4 := OptionalLine(IdPrefix, StripLF(id));
    assert LF !in EventPrefix;
    assert LF !in IdPrefix;
    OptionalLineNoLF(EventPrefix, StripLF(event));
    OptionalLineNoLF(IdPrefix, StripLF(id));
    DataFieldLinesNoLF(DataSegments(data));
    RetryLinesNoLF(retry);
    NoLineFeedsConcat(l3, l4);
    NoLineFeedsConcat(l2, l3 + l4);
    NoLineFeedsConcat(l1, l2 + (l3 + l4));
  }

  /** Cutting a frame of line-feed-free lines at its line feeds gives the lines, the blank line and the empty remainder. */
  lemma RawSplitFrame(lines: seq<string>)
    requires NoLineFeeds(lines)
    ensures RawSplit(Unlines(lines + [[]])) == lines + [[], []]
  {
    NoLineFeedsConcat(lines, [[]]);
    RawSplitUnlines(lines + [[]]);
    assert lines + [[]] + [[]] == lines + [[], []];
  }

  /** Cutting the frame at its line feeds gives the field lines, the blank line and the empty remainder. */
  lemma RawSplitBuild(event: Option<string>, data: Option<string>, retry: Option<Int32>, id: Option<string>)
    ensures RawSplit(Build(event, data, retry, id)) == FieldLines(event, data, retry, id) + [[], []]
  {
    BuildAsLines(event, data, retry, id);
    FieldLinesNoLF(event, data, retry, id);
    RawSplitFrame(FieldLines(event, data, retry, id));
  }

  /** A line beginning with one field name does not begin with another. */
  lemma DistinctFieldNames(p: string, q: string, v: string)
    requires |p| > 0 && |q| > 0 && p[0] != q[0]
    ensures !(p <= q + v)
  {
  }

  lemma DecodeIdLine(event: Option<string>, data: seq<string>, retry: Option<int>, id: Option<string>)
    ensures DecodeId(OptionalLine(IdPrefix, id), event, data, retry) == Some(Fields(event, data, retry, id))
  {
    if id.Some? {
      assert (IdPrefix + id.value)[|IdPrefix|..] == id.value;
    }
  }

  lemma DecodeRetryLine(event: Option<string>, data: seq<string>, retry: Option<Int32>, id: Option<string>)
    ensures DecodeRetry(RetryLines(retry) + OptionalLine(IdPrefix, id), event, data)
         == Some(Fields(event, data, retry, id))
  {
    var tail := OptionalLine(IdPrefix, id);
    DecodeIdLine(event, data, retry, id);
    if retry.Some? {
      var line := RetryPrefix + IntToDecimal(retry.value);
      assert (RetryLines(retry) + tail)[0] == line;
      assert (RetryLines(retry) + tail)[1..] == tail;
      assert line[|RetryPrefix|..] == IntToDecimal(retry.value);
      ParseIntToDecimal(retry.value);
    } else {
      assert RetryLines(retry) + tail == tail;
      if id.Some? {
        DistinctFieldNames(RetryPrefix, IdPrefix, id.value);
      }
    }
  }

  lemma {:induction false} DecodeDataLines(segments: seq<string>, tail: seq<string>, event: Option<string>, data: seq<string>)
    requires tail == [] || !(DataPrefix <= tail[0])
    ensures DecodeData(DataFieldLines(segments) + tail, event, data) == DecodeRetry(tail, event, data + segments)
    decreases |segments|
  {
    if segments == [] {
      assert DataFieldLines(segments) + tail == tail;
      assert data + segments == data;
    } else {
      var lines := DataFieldLines(segments) + tail;
      assert lines[0] == DataPrefix + segments[0];
      assert lines[1..] == DataFieldLines(segments[1..]) + tail;
      assert lines[0][|DataPrefix|..] == segments[0];
      DecodeDataLines(segments[1..], tail, event, data + [segments[0]]);
      assert data + [segments[0]] + segments[1..] == data + segments;
    }
  }

  /** Neither the `retry: ` nor the `id: ` line can be mistaken for an `event: ` or `data: ` line. */
  lemma TailLinesStart(retry: Option<Int32>, id: Option<string>)
    ensures var tail := RetryLines(retry) + OptionalLine(IdPrefix, id);
            tail == [] || (!(EventPrefix <= tail[0]) && !(DataPrefix <= tail[0]))
  {
    var tail := RetryLines(retry) + OptionalLine(IdPrefix, id);
    if retry.Some? {
      assert tail[0] == RetryPrefix + IntToDecimal(retry.value);
      DistinctFieldNames(DataPrefix, RetryPrefix, IntToDecimal(retry.value));
      DistinctFieldNames(EventPrefix, RetryPrefix, IntToDecimal(retry.value));
    } else if id.Some? {
      assert tail[0] == IdPrefix + id.value;
      DistinctFieldNames(DataPrefix, IdPrefix, id.value);
      DistinctFieldNames(EventPrefix, IdPrefix, id.value);
    }
  }

  lemma BodyLinesStart(segments: seq<string>, tail: seq<string>)
    requires tail == [] || !(EventPrefix <= tail[0])
    ensures var body := DataFieldLines(segments) + tail;
            body == [] || !(EventPrefix <= body[0])
  {
    if segments != [] {
      assert (DataFieldLines(segments) + tail)[0] == DataPrefix + segments[0];
      DistinctFieldNames(EventPrefix, DataPrefix, segments[0]);
    } else {
      assert DataFieldLines(segments) + tail == tail;
    }
  }

  lemma DecodeEventLine(event: Option<string>, body: seq<string>)
    requires body == [] || !(EventPrefix <= body[0])
    ensures DecodeFields(OptionalLine(EventPrefix, event) + body) == DecodeData(body, event, [])
  {
    if event.Some? {
      var line := EventPrefix + event.value;
      assert (OptionalLine(EventPrefix, event) + body)[0] == line;
      assert (OptionalLine(EventPrefix, event) + body)[1..] == body;
      assert line[|EventPrefix|..] == event.value;
    } else {
      assert OptionalLine(EventPrefix, event) + body == body;
    }
  }

  /** The decoder reads back, from the field lines, exactly the fields they were written from. */
  lemma DecodeFieldLines(event: Option<string>, data: Option<string>, retry: Option<Int32>, id: Option<string>)
    ensures DecodeFields(FieldLines(event, data, retry, id)) == Some(Expected(event, data, retry, id))
  {
    var ev := StripLF(event);
    var i := StripLF(id);
    var segments := DataSegments(data);
    var tail := RetryLines(retry) + OptionalLine(IdPrefix, i);
    var body := DataFieldLines(segments) + tail;
    assert FieldLines(event, data, retry, id) == OptionalLine(EventPrefix, ev) + body;
    TailLinesStart(retry, i);
    BodyLinesStart(segments, tail);
    calc {
      DecodeFields(OptionalLine(EventPrefix, ev) + body);
      { DecodeEventLine(ev, body); }
      DecodeData(body, ev, []);
      { DecodeDataLines(segments, tail, ev, []); assert [] + segments == segments; }
      DecodeRetry(tail, ev, segments);
      { DecodeRetryLine(ev, segments, retry, i); }
      Some(Fields(ev, segments, retry, i));
    }
  }

  /**
   * Round trip: decoding the frame built from any arguments gives the event
   * name and id without their line feeds, the `split("\n")` segments of the
   * data in order, and the retry value.
   */
  lemma DecodeBuild(event: Option<string>, data: Option<string>, retry: Option<Int32>, id: Option<string>)
    ensures DecodeFrame(Build(event, data, retry, id)) == Some(Expected(event, data, retry, id))
  {
    var frame := Build(event, data, retry, id);
    var lines := FieldLines(event, data, retry, id);
    RawSplitBuild(event, data, retry, id);
    DecodeFrameOfLines(frame, lines);
    DecodeFieldLines(event, data, retry, id);
  }

  /** A string whose line-feed cut is some lines, a blank line and the remainder is decoded from those lines. */
  lemma DecodeFrameOfLines(s: string, lines: seq<string>)
    requires RawSplit(s) == lines + [[], []]
    ensures DecodeFrame(s) == DecodeFields(lines)
  {
    var raw := lines + [[], []];
    assert raw[..|raw| - 2] == lines;
  }

  /** Frames that are equal were built from the same line-feed-stripped names and ids, data segments and retry value. */
  lemma BuildInjective(
    e1: Option<string>, d1: Option<string>, r1: Option<Int32>, i1: Option<string>,
    e2: Option<string>, d2: Option<string>, r2: Option<Int32>, i2: Option<string>)
    requires Build(e1, d1, r1, i1) == Build(e2, d2, r2, i2)
    ensures StripLF(e1) == StripLF(e2) && StripLF(i1) == StripLF(i2)
    ensures DataSegments(d1) == DataSegments(d2) && r1 == r2
  {
    assert Expected(e1, d1, r1, i1) == Expected(e2, d2, r2, i2) by {
      DecodeBuild(e1, d1, r1, i1);
      DecodeBuild(e2, d2, r2, i2);
    }
  }

  /**
   * The frame has one line per present field and data segment plus the blank
   * line, so its line feeds number exactly that many.
   */
  lemma BuildLineCount(event: Option<string>, data: Option<string>, retry: Option<Int32>, id: Option<string>)
    ensures multiset(Build(event, data, retry, id))[LF]
         == (if event.Some? then 1 else 0) + |DataSegments(data)|
          + (if retry.Some? then 1 else 0) + (if id.Some? then 1 else 0) + 1
  {
    RawSplitBuild(event, data, retry, id);
    FieldLinesLength(event, data, retry, id);
  }

  lemma FieldLinesLength(event: Option<string>, data: Option<string>, retry: Option<Int32>, id: Option<string>)
    ensures |FieldLines(event, data, retry, id)|
         == (if event.Some? then 1 else 0) + |DataSegments(data)|
          + (if retry.Some? then 1 else 0) + (if id.Some? then 1 else 0)
  {
  }

  /** The decoded data lines, joined with line feeds, are the payload minus its trailing line feeds. */
  lemma DecodedDataJoins(event: Option<string>, data: string, retry: Option<Int32>, id: Option<string>)
    ensures var f := DecodeFrame(Build(event, Some(data), retry, id));
            f.Some? && Join(f.value.data) == TrimTrailingLF(data)
  {
    DecodeBuild(event, Some(data), retry, id);
    JoinJavaSplit(data);
  }
}

=== FILE: java_text.dfy ===
/**
 * The two `java.lang.String` operations the event encoder relies on, stated
 * over `string` (= `seq<char>`): `replace("\n", "")` and `split("\n")`.
 *
 * `split` with a one-character, non-regex-special separator and limit 0 cuts
 * the string at every line feed and then discards all trailing empty
 * segments, except that a string without any line feed (including the empty
 * string) comes back as the single segment it is.
 */
module JavaText {

  /** The line feed, the only character either operation looks for. */
  const LF: char := '\n'

  /**
   * `s.replace(x, "")` for a one-character string `x`: every `x` is deleted,
   * every other character is kept. The encoder uses it with `x` the line feed.
   */
  function RemoveChar(s: string, x: char): (r: string)
    ensures x !in r
    ensures |r| <= |s|
    ensures x !in s ==> r == s
  {
    if s == [] then []
    else
      assert s == [s[0]] + s[1..];
      (if s[0] == x then [] else [s[0]]) + RemoveChar(s[1..], x)
  }

  /** Every character other than `x` occurs as often after the removal as before. */
  lemma {:induction false} RemoveCharKeepsOthers(s: string, x: char, c: char)
    requires c != x
    ensures multiset(RemoveChar(s, x))[c] == multiset(s)[c]
    decreases |s|
  {
    if s != [] {
      RemoveCharKeepsOthers(s[1..], x, c);
      assert s == [s[0]] + s[1..];
      assert multiset(s) == multiset([s[0]]) + multiset(s[1..]);
      var head: string := if s[0] == x then [] else [s[0]];
      assert RemoveChar(s, x) == head + RemoveChar(s[1..], x);
      assert multiset(RemoveChar(s, x)) == multiset(head) + multiset(RemoveChar(s[1..], x));
    }
  }

  lemma RemoveCharCons(c: char, t: string, x: char)
    ensures RemoveChar([c] + t, x) == (if c == x then [] else [c]) + RemoveChar(t, x)
  {
    assert ([c] + t)[0] == c;
    assert ([c] + t)[1..] == t;
  }

  /** The removal works piecewise, so the order of the kept characters is the original one. */
  lemma {:induction false} RemoveCharConcat(a: string, b: string, x: char)
    ensures RemoveChar(a + b, x) == RemoveChar(a, x) + RemoveChar(b, x)
    decreases |a|
  {
    if a == [] {
      assert a + b == b;
    } else {
      var c, t := a[0], a[1..];
      var head: string := if c == x then [] else [c];
      calc {
        RemoveChar(a + b, x);
        { assert a + b == [c] + (t + b); RemoveCharCons(c, t + b, x); }
        head + RemoveChar(t + b, x);
        { RemoveCharConcat(t, b, x); }
        head + (RemoveChar(t, x) + RemoveChar(b, x));
        (head + RemoveChar(t, x)) + RemoveChar(b, x);
        { assert a == [c] + t; RemoveCharCons(c, t, x); }
        RemoveChar(a, x) + RemoveChar(b, x);
      }
    }
  }

  /** The longest prefix of `s` whose removal leaves only copies of `x` behind. */
  function DropTrailing<T(==)>(s: seq<T>, x: T): (r: seq<T>)
    ensures r <= s
    ensures |r| == 0 || r[|r| - 1] != x
    ensures forall k :: |r| <= k < |s| ==> s[k] == x
    decreases |s|
  {
    if |s| > 0 && s[|s| - 1] == x then DropTrailing(s[..|s| - 1], x) else s
  }

  /** `s` with all trailing line feeds removed. */
  function TrimTrailingLF(s: string): string
  {
    DropTrailing(s, LF)
  }

  /**
   * `s` cut at every line feed, with nothing discarded: one more segment than
   * there are line feeds, none containing a line feed.
   */
  function RawSplit(s: string): (r: seq<string>)
    ensures |r| == multiset(s)[LF] + 1
    ensures forall k :: 0 <= k < |r| ==> LF !in r[k]
    decreases |s|
  {
    if s == [] then [[]]
    else
      assert s == [s[0]] + s[1..];
      var rest := RawSplit(s[1..]);
      if s[0] == LF then [[]] + rest
      else [[s[0]] + rest[0]] + rest[1..]
  }

  /** `s.split("\n")` as `java.lang.String` computes it. */
  function JavaSplit(s: string): (r: seq<string>)
    ensures forall k :: 0 <= k < |r| ==> LF !in r[k]
    ensures s == [] ==> r == [[]]
    ensures s != [] && |r| > 0 ==> r[|r| - 1] != []
  {
    if LF !in s then [s] else DropTrailing(RawSplit(s), [])
  }

  /** `split("\n")` returns no segment at all exactly for a non-empty string of line feeds only. */
  lemma JavaSplitEmpty(s: string)
    ensures JavaSplit(s) == [] <==> s != [] && forall k :: 0 <= k < |s| ==> s[k] == LF
  {
    if LF !in s {
      assert s != [] ==> s[0] in s;
    } else {
      var raw := RawSplit(s);
      var r := DropTrailing(raw, []);
      RawSplitAllEmpty(s);
      if r != [] {
        assert r[|r| - 1] == raw[|r| - 1];
      }
      assert s != [] by {
        var k :| 0 <= k < |s| && s[k] == LF;
      }
    }
  }

  /** `String.join("\n", segments)`. */
  function Join(segments: seq<string>): string
  {
    if |segments| == 0 then []
    else if |segments| == 1 then segments[0]
    else segments[0] + [LF] + Join(segments[1..])
  }

  /** Every line followed by a line feed. */
  function Unlines(lines: seq<string>): string
  {
    if lines == [] then [] else lines[0] + [LF] + Unlines(lines[1..])
  }

  /** All segments of a raw split are empty exactly when the string is nothing but line feeds. */
  lemma {:induction false} RawSplitAllEmpty(s: string)
    ensures (forall k :: 0 <= k < |RawSplit(s)| ==> RawSplit(s)[k] == [])
        <==> (forall k :: 0 <= k < |s| ==> s[k] == LF)
    decreases |s|
  {
    if s != [] {
      RawSplitAllEmpty(s[1..]);
      var rest := RawSplit(s[1..]);
      var r := RawSplit(s);
      if s[0] == LF {
        assert r == [[]] + rest;
        var tail := s[1..];
        assert (forall k :: 0 <= k < |r| ==> r[k] == [])
            <==> (forall k :: 0 <= k < |rest| ==> rest[k] == []) by {
          assert forall k :: 0 <= k < |rest| ==> rest[k] == r[k + 1];
        }
        assert (forall k :: 0 <= k < |s| ==> s[k] == LF)
            <==> (forall k :: 0 <= k < |tail| ==> tail[k] == LF) by {
          assert forall k :: 0 <= k < |tail| ==> tail[k] == s[k + 1];
        }
      } else {
        assert r[0] == [s[0]] + rest[0];
      }
    }
  }

  /** There is one more raw segment than there are line feeds. */
  lemma {:induction false} RawSplitCount(s: string)
    ensures |RawSplit(s)| == multiset(s)[LF] + 1
    decreases |s|
  {
    if s != [] {
      assert s == [s[0]] + s[1..];
      RawSplitCount(s[1..]);
    }
  }

  /** A string without line feeds is its own only segment. */
  lemma {:induction false} RawSplitNoLF(s: string)
    requires LF !in s
    ensures RawSplit(s) == [s]
    decreases |s|
  {
    if s != [] {
      assert LF !in s[1..];
      RawSplitNoLF(s[1..]);
      assert [s[0]] + s[1..] == s;
    }
  }

  /** A line-feed-free head is split off as the first segment. */
  lemma {:induction false} RawSplitCons(a: string, b: string)
    requires LF !in a
    ensures RawSplit(a + [LF] + b) == [a] + RawSplit(b)
    decreases |a|
  {
    var s := a + [LF] + b;
    if a == [] {
      assert s[1..] == b;
    } else {
      assert s[1..] == a[1..] + [LF] + b;
      assert LF !in a[1..];
      RawSplitCons(a[1..], b);
      assert [a[0]] + a[1..] == a;
    }
  }

  /** Joining the raw segments gives the string back. */
  lemma {:induction false} JoinRawSplit(s: string)
    ensures Join(RawSplit(s)) == s
    decreases |s|
  {
    if s != [] {
      var c, tail := s[0], s[1..];
      var rest := RawSplit(tail);
      assert s == [c] + tail;
      if c == LF {
        calc {
          Join(RawSplit(s));
          { assert RawSplit(s) == [[]] + rest; }
          Join([[]] + rest);
          { JoinConsEmpty(rest); }
          [LF] + Join(rest);
          { JoinRawSplit(tail); }
          [LF] + tail;
        }
      } else {
        calc {
          Join(RawSplit(s));
          { assert RawSplit(s) == [[c] + rest[0]] + rest[1..]; }
          Join([[c] + rest[0]] + rest[1..]);
          { JoinConsHead(c, rest); }
          [c] + Join(rest);
          { JoinRawSplit(tail); }
          [c] + tail;
        }
      }
    }
  }

  /** An empty first segment contributes only its line feed to the join. */
  lemma JoinConsEmpty(segments: seq<string>)
    requires |segments| > 0
    ensures Join([[]] + segments) == [LF] + Join(segments)
  {
    var r := [[]] + segments;
    assert r[0] == [] && r[1..] == segments;
  }

  /** Concatenation is associative. */
  lemma ConcatAssoc<T>(x: seq<T>, y: seq<T>, z: seq<T>)
    ensures x + y + z == x + (y + z)
  {
  }

  /** The empty sequence is the unit of concatenation. */
  lemma ConcatEmpty<T>(x: seq<T>, y: seq<T>)
    ensures x + [] + y == x + y && [] + x == x && x + [] == x
  {
  }

  /** Prepending a character to the first segment prepends it to the join. */
  lemma JoinConsHead(c: char, segments: seq<string>)
    requires |segments| > 0
    ensures Join([[c] + segments[0]] + segments[1..]) == [c] + Join(segments)
  {
    var r := [[c] + segments[0]] + segments[1..];
    if |segments| > 1 {
      calc {
        Join(r);
        { assert |r| > 1 && r[0] == [c] + segments[0] && r[1..] == segments[1..]; }
        ([c] + segments[0]) + [LF] + Join(segments[1..]);
        { ConcatAssoc([c], segments[0], [LF]); }
        [c] + (segments[0] + [LF]) + Join(segments[1..]);
        { ConcatAssoc([c], segments[0] + [LF], Join(segments[1..])); }
        [c] + (segments[0] + [LF] + Join(segments[1..]));
        [c] + Join(segments);
      }
    }
  }

  /** Splitting a join of line-feed-free segments gives the segments back. */
  lemma {:induction false} RawSplitJoin(segments: seq<string>)
    requires |segments| > 0
    requires forall k :: 0 <= k < |segments| ==> LF !in segments[k]
    ensures RawSplit(Join(segments)) == segments
    decreases |segments|
  {
    if |segments| == 1 {
      RawSplitNoLF(segments[0]);
    } else {
      RawSplitJoin(segments[1..]);
      RawSplitCons(segments[0], Join(segments[1..]));
      assert [segments[0]] + segments[1..] == segments;
    }
  }

  /** Appending a segment to a non-empty join adds a line feed and the segment. */
  lemma {:induction false} JoinSnoc(init: seq<string>, last: string)
    requires |init| > 0
    ensures Join(init + [last]) == Join(init) + [LF] + last
    decreases |init|
  {
    if |init| > 1 {
      JoinSnoc(init[1..], last);
      assert (init + [last])[1..] == init[1..] + [last];
    }
  }

  /** Dropping empty trailing segments before joining equals trimming trailing line feeds after. */
  lemma {:induction false} JoinDropTrailing(segments: seq<string>)
    requires |segments| > 0
    requires forall k :: 0 <= k < |segments| ==> LF !in segments[k]
    ensures Join(DropTrailing(segments, [])) == TrimTrailingLF(Join(segments))
    decreases |segments|
  {
    var n := |segments|;
    var init := segments[..n - 1];
    var last := segments[n - 1];
    assert segments == init + [last];
    if last != [] {
      assert DropTrailing(segments, []) == segments;
      var j := Join(segments);
      if n > 1 {
        JoinSnoc(init, last);
      }
      assert j[|j| - 1] == last[|last| - 1];
      assert last[|last| - 1] in last;
      assert DropTrailing(j, LF) == j;
    } else if n == 1 {
      assert DropTrailing(segments, []) == DropTrailing(init, []);
    } else {
      assert DropTrailing(segments, []) == DropTrailing(init, []);
      JoinSnoc(init, last);
      var j := Join(init);
      assert Join(segments) == j + [LF];
      assert (j + [LF])[..|j|] == j;
      assert DropTrailing(j + [LF], LF) == DropTrailing(j, LF);
      JoinDropTrailing(init);
    }
  }

  /** Joining the result of `split("\n")` recovers the string minus its trailing line feeds. */
  lemma JoinJavaSplit(s: string)
    ensures Join(JavaSplit(s)) == TrimTrailingLF(s)
  {
    if LF !in s {
    } else {
      JoinDropTrailing(RawSplit(s));
      JoinRawSplit(s);
    }
  }

  /**
   * The segment lists `split("\n")` can return from a non-all-line-feed
   * string: at least one segment, none containing a line feed, and the last
   * one non-empty unless it is the only one.
   */
  predicate IsSplitResult(segments: seq<string>)
  {
    && |segments| > 0
    && (forall k :: 0 <= k < |segments| ==> LF !in segments[k])
    && (|segments| == 1 || segments[|segments| - 1] != [])
  }

  /** Splitting the join of such a list gives the list back. */
  lemma JavaSplitJoin(segments: seq<string>)
    requires IsSplitResult(segments)
    ensures JavaSplit(Join(segments)) == segments
  {
    if |segments| == 1 {
      RawSplitNoLF(segments[0]);
    } else {
      var s := Join(segments);
      assert s == segments[0] + [LF] + Join(segments[1..]);
      assert s[|segments[0]|] == LF;
      RawSplitJoin(segments);
      assert DropTrailing(segments, []) == segments;
    }
  }

  /** Unlines is Join with an extra empty segment at the end. */
  lemma {:induction false} UnlinesAsJoin(lines: seq<string>)
    ensures Unlines(lines) == Join(lines + [[]])
    decreases |lines|
  {
    if lines != [] {
      UnlinesAsJoin(lines[1..]);
      assert (lines + [[]])[1..] == lines[1..] + [[]];
      assert lines[0] + [LF] + Unlines(lines[1..]) == lines[0] + [LF] + Join(lines[1..] + [[]]);
    }
  }

  /** Unlines distributes over concatenation of line lists. */
  lemma {:induction false} UnlinesConcat(a: seq<string>, b: seq<string>)
    ensures Unlines(a + b) == Unlines(a) + Unlines(b)
    decreases |a|
  {
    if a != [] {
      assert (a + b)[0] == a[0];
      assert (a + b)[1..] == a[1..] + b;
      UnlinesConcat(a[1..], b);
      assert Unlines(a + b) == a[0] + [LF] + Unlines(a[1..] + b);
      assert Unlines(a) == a[0] + [LF] + Unlines(a[1..]);
      assert a[0] + [LF] + (Unlines(a[1..]) + Unlines(b)) == (a[0] + [LF] + Unlines(a[1..])) + Unlines(b);
    } else {
      assert a + b == b;
    }
  }

  /** Cutting line-feed-terminated lines at every line feed gives the lines and one empty remainder. */
  lemma RawSplitUnlines(lines: seq<string>)
    requires forall k :: 0 <= k < |lines| ==> LF !in lines[k]
    ensures RawSplit(Unlines(lines)) == lines + [[]]
    ensures multiset(Unlines(lines))[LF] == |lines|
  {
    UnlinesAsJoin(lines);
    RawSplitJoin(lines + [[]]);
    RawSplitCount(Unlines(lines));
  }
}

=== FILE: message_event.dfy ===
/**
 * `SSEHelper.MessageEvent`: an immutable event whose wire form — a frame of
 * the "text/event-stream" format of section 9.2 of the WHATWG HTML Living
 * Standard — is built once, in the constructor, and returned by `toString`.
 *
 * A Java `null` argument is `None`. The frame consists of, in this order, an
 * optional `event: ` line, one `data: ` line per segment of
 * `data.split("\n")`, an optional `retry: ` line, an optional `id: ` line and
 * the empty line that dispatches the event.
 */
module MessageEvents {
  import opened Wrappers
  import opened JavaText
  import opened Decimal

  const EventPrefix: string := "event: "
  const DataPrefix: string := "data: "
  const RetryPrefix: string := "retry: "
  const IdPrefix: string := "id: "

  /** One field line of a frame: prefix, value, line feed. */
  function FieldLine(prefix: string, value: string): string
  {
    prefix + value + [LF]
  }

  /** The `data: ` lines for the given segments, in their order. */
  function DataLines(segments: seq<string>): string
  {
    if segments == [] then [] else FieldLine(DataPrefix, segments[0]) + DataLines(segments[1..])
  }

  /** The segments `build` emits `data: ` lines for: none without data, else `split("\n")`. */
  function DataSegments(data: Option<string>): seq<string>
  {
    match data
    case None => []
    case Some(d) => JavaSplit(d)
  }

  /** A nullable string with its line feeds removed, as `replace("\n", "")` does to a non-null one. */
  function StripLF(value: Option<string>): (r: Option<string>)
    ensures r.Some? <==> value.Some?
    ensures r.Some? ==> LF !in r.value
  {
    match value
    case None => None
    case Some(v) => Some(RemoveChar(v, LF))
  }

  /** The `event: ` line, present when the event name is. */
  function EventPart(event: Option<string>): string
  {
    match event
    case None => []
    case Some(e) => FieldLine(EventPrefix, RemoveChar(e, LF))
  }

  /** The `data: ` lines, none when the data is absent. */
  function DataPart(data: Option<string>): string
  {
    DataLines(DataSegments(data))
  }

  /** The `retry: ` line, present when the retry value is. */
  function RetryPart(retry: Option<Int32>): string
  {
    match retry
    case None => []
    case Some(n) => FieldLine(RetryPrefix, IntToDecimal(n))
  }

  /** The `id: ` line, present when the id is. */
  function IdPart(id: Option<string>): string
  {
    match id
    case None => []
    case Some(i) => FieldLine(IdPrefix, RemoveChar(i, LF))
  }

  /** `MessageEvent.build`: the frame for the four (nullable) fields. */
  function Build(event: Option<string>, data: Option<string>, retry: Option<Int32>, id: Option<string>): (r: string)
    ensures |r| > 0 && r[|r| - 1] == LF
    ensures event.None? && data.None? && retry.None? && id.None? ==> r == [LF]
  {
    EventPart(event) + DataPart(data) + RetryPart(retry) + IdPart(id) + [LF]
  }

  /** The Java object's state: its four fields and the string cached by `build`. */
  datatype EventState = EventState(
    data: Option<string>,
    event: Option<string>,
    retry: Option<Int32>,
    id: Option<string>,
    toStringCache: string)

  /** The cache holds the frame of the fields, as `build` leaves it. */
  predicate Built(m: EventState)
  {
    m.toStringCache == Build(m.event, m.data, m.retry, m.id)
  }

  /**
   * A `MessageEvent` as Java can reach it: both constructors end by calling
   * `build`, and no field changes afterwards.
   */
  type MessageEvent = m: EventState | Built(m) witness EventState(None, None, None, None, [LF])

  /** The four-argument constructor: stores the fields, then builds the frame once. */
  function NewMessageEvent(event: Option<string>, data: Option<string>, retry: Option<Int32>, id: Option<string>): (m: MessageEvent)
    ensures m.event == event && m.data == data && m.retry == retry && m.id == id
  {
    EventState(data, event, retry, id, Build(event, data, retry, id))
  }

  /** The two-argument constructor: the same event as the four-argument one without `retry` and `id`. */
  function NewMessageEvent2(event: Option<string>, data: Option<string>): (m: MessageEvent)
    ensures m == NewMessageEvent(event, data, None, None)
  {
    EventState(data, event, None, None, Build(event, data, None, None))
  }

  /** `toString`: the string cached at construction, never rebuilt, which is the frame of the event's fields. */
  function ToString(m: MessageEvent): (r: string)
    ensures r == Build(m.event, m.data, m.retry, m.id)
  {
    m.toStringCache
  }
}

=== FILE: sse_helper.dfy ===
/**
 * `SSEHelper`: the registry of open targets.
 *
 * Targets are Java objects, and the same one can be registered twice, so the
 * registry is a list of references into a heap of targets; a reference that
 * appears twice names one target. `broadcast` and `clearTargets` iterate over
 * a snapshot of the list, which is what iterating a `CopyOnWriteArrayList`
 * gives; the model is sequential. The `i`-th write of a broadcast fails when
 * `i` is in the set of failing positions it is given.
 */
module Registry {
  import opened Wrappers
  import opened MessageEvents
  import opened EventTargets

  /** The identity of an `EventTarget` object. */
  type Ref = nat

  datatype SSEHelper = SSEHelper(targetList: seq<Ref>, heap: map<Ref, EventTarget>)

  /** Every listed reference names a target. */
  predicate Valid(s: SSEHelper)
  {
    forall k :: 0 <= k < |s.targetList| ==> s.targetList[k] in s.heap
  }

  /** A helper with no targets, as constructed. */
  function NewSSEHelper(heap: map<Ref, EventTarget>): (s: SSEHelper)
    ensures Valid(s) && s.targetList == []
  {
    SSEHelper([], heap)
  }

  /** `getTargetList`: the registered targets, in registration order, one entry per registration. */
  function GetTargetList(s: SSEHelper): (r: seq<EventTarget>)
    requires Valid(s)
    ensures |r| == |s.targetList|
    ensures forall k :: 0 <= k < |r| ==> r[k] == s.heap[s.targetList[k]]
  {
    seq(|s.targetList|, k requires 0 <= k < |s.targetList| => s.heap[s.targetList[k]])
  }

  /** Every listed target has been answered with status 200 and has had the handshake written to it. */
  predicate Registered(s: SSEHelper)
  {
    Valid(s) &&
    forall k :: 0 <= k < |s.targetList| ==>
      s.heap[s.targetList[k]].transport.response.status == StatusOk
      && OpenFrame in s.heap[s.targetList[k]].transport.written
  }

  /**
   * `addTarget(EventTarget)`: `ok`, then `open`, then append. When `ok`
   * throws, because the container refuses the response, nothing changes.
   * When `open` throws, the response headers set by `ok` stay and the list
   * is unchanged. Either exception reaches the caller.
   */
  function AddTarget(s: SSEHelper, r: Ref, okFails: bool, openFails: bool): (res: (SSEHelper, Outcome))
    requires r in s.heap
    ensures res.1 == Threw <==> okFails || openFails
    ensures res.0.targetList == (if okFails || openFails then s.targetList else s.targetList + [r])
    ensures okFails ==> res.0 == s
    ensures res.0.heap.Keys == s.heap.Keys
    ensures forall q :: q in s.heap && q != r ==> res.0.heap[q] == s.heap[q]
    ensures !okFails ==> res.0.heap[r] == Open(Ok(s.heap[r]), openFails).0
    ensures Valid(s) ==> Valid(res.0)
  {
    var answered := TryOk(s.heap[r], okFails);
    if answered.1 == Threw then (s, Threw)
    else
      var step := Open(answered.0, openFails);
      var heap := s.heap[r := step.0];
      if step.1 == Normal then (SSEHelper(s.targetList + [r], heap), Normal) else (SSEHelper(s.targetList, heap), Threw)
  }

  /** A successfully added target is listed last, answered with 200, and was sent the handshake as its last frame. */
  lemma AddTargetOpens(s: SSEHelper, r: Ref)
    requires Valid(s) && r in s.heap
    ensures var s' := AddTarget(s, r, false, false).0;
      r !in s.targetList ==> GetTargetList(s') == GetTargetList(s) + [s'.heap[r]]
    ensures var t := AddTarget(s, r, false, false).0.heap[r];
      t.transport.response.status == StatusOk
      && t.transport.written == s.heap[r].transport.written + [OpenFrame]
  {
    var s' := AddTarget(s, r, false, false).0;
    if r !in s.targetList {
      forall k | 0 <= k < |s.targetList|
        ensures s'.heap[s.targetList[k]] == s.heap[s.targetList[k]]
      {
        assert s.targetList[k] in s.targetList;
      }
    }
  }

  /** `addTarget` keeps every listed target registered, whether or not `ok` or `open` throws. */
  lemma AddTargetKeepsRegistered(s: SSEHelper, r: Ref, okFails: bool, openFails: bool)
    requires Registered(s) && r in s.heap
    ensures Registered(AddTarget(s, r, okFails, openFails).0)
  {
    var s' := AddTarget(s, r, okFails, openFails).0;
    forall k | 0 <= k < |s'.targetList|
      ensures s'.heap[s'.targetList[k]].transport.response.status == StatusOk
      ensures OpenFrame in s'.heap[s'.targetList[k]].transport.written
    {
      var q := s'.targetList[k];
      if k < |s.targetList| {
        assert q == s.targetList[k];
        if q == r {
          assert OpenFrame in s.heap[r].transport.written;
          assert s.heap[r].transport.written <= s'.heap[r].transport.written;
        }
      }
    }
  }

  /** `f` repeated `n` times: what `n` successful sends of the same frame print. */
  function Repeat(f: string, n: nat): (r: seq<string>)
    ensures |r| == n
    ensures forall k :: 0 <= k < n ==> r[k] == f
  {
    if n == 0 then [] else Repeat(f, n - 1) + [f]
  }

  /** How many of the first `n` positions of `list` name `r` and have a write that does not fail. */
  function Deliveries(list: seq<Ref>, fails: set<nat>, r: Ref, n: nat): nat
    requires n <= |list|
  {
    if n == 0 then 0
    else Deliveries(list, fails, r, n - 1) + (if list[n - 1] == r && n - 1 !in fails then 1 else 0)
  }

  /** A reference at most once in the list gets at most one delivery: one when it is listed at a position whose write succeeds. */
  lemma {:induction false} DeliveriesOnce(list: seq<Ref>, fails: set<nat>, r: Ref, n: nat)
    requires n <= |list|
    requires forall i, j :: 0 <= i < j < |list| ==> list[i] != list[j]
    ensures Deliveries(list, fails, r, n) == (if exists k :: 0 <= k < n && list[k] == r && k !in fails then 1 else 0)
    decreases n
  {
    if n > 0 {
      DeliveriesOnce(list, fails, r, n - 1);
      if list[n - 1] == r {
        assert !exists k :: 0 <= k < n - 1 && list[k] == r;
      }
    }
  }

  /** A reference not in the list gets no delivery. */
  lemma {:induction false} DeliveriesUnlisted(list: seq<Ref>, fails: set<nat>, r: Ref, n: nat)
    requires n <= |list| && r !in list
    ensures Deliveries(list, fails, r, n) == 0
    decreases n
  {
    if n > 0 {
      assert list[n - 1] in list;
      DeliveriesUnlisted(list, fails, r, n - 1);
    }
  }

  /** One more send after `n` deliveries of the same frame. */
  lemma SendAfterRepeat(t: EventTarget, m: MessageEvent, n: nat, fails: bool)
    ensures Send(Append(t, Repeat(ToString(m), n)), m, fails)
         == Append(t, Repeat(ToString(m), if fails then n else n + 1))
  {
    var w := t.transport.written;
    assert w + Repeat(ToString(m), n) + [ToString(m)] == w + Repeat(ToString(m), n + 1);
  }

  /** What the `i`-th iteration of the broadcast loop does to the heap. */
  predicate BroadcastSoFar(h0: map<Ref, EventTarget>, h: map<Ref, EventTarget>, list: seq<Ref>, m: MessageEvent, fails: set<nat>, i: nat)
    requires i <= |list|
  {
    h.Keys == h0.Keys
    && forall r :: r in h ==> h[r] == Append(h0[r], Repeat(ToString(m), Deliveries(list, fails, r, i)))
  }

  lemma BroadcastStep(h0: map<Ref, EventTarget>, h: map<Ref, EventTarget>, list: seq<Ref>, m: MessageEvent, fails: set<nat>, i: nat)
    requires i < |list| && list[i] in h
    requires BroadcastSoFar(h0, h, list, m, fails, i)
    ensures BroadcastSoFar(h0, h[list[i] := Send(h[list[i]], m, i in fails)], list, m, fails, i + 1)
  {
    var r := list[i];
    var h' := h[r := Send(h[r], m, i in fails)];
    SendAfterRepeat(h0[r], m, Deliveries(list, fails, r, i), i in fails);
    forall q | q in h'
      ensures h'[q] == Append(h0[q], Repeat(ToString(m), Deliveries(list, fails, q, i + 1)))
    {
      assert Deliveries(list, fails, q, i + 1)
          == Deliveries(list, fails, q, i) + (if q == r && i !in fails then 1 else 0);
    }
  }

  /**
   * `broadcast(MessageEvent)`: sends the event to each target of the
   * snapshot, in list order. `send(MessageEvent)` never throws, so the
   * branch that would remove a failed target is never taken: the list is
   * returned unchanged, and a failed write only means that target misses
   * the frame.
   */
  method Broadcast(s: SSEHelper, m: MessageEvent, fails: set<nat>) returns (s': SSEHelper, result: seq<Ref>)
    requires Valid(s)
    ensures result == s'.targetList == s.targetList
    ensures s'.heap.Keys == s.heap.Keys
    ensures forall r :: r in s.heap ==>
      s'.heap[r] == Append(s.heap[r], Repeat(Build(m.event, m.data, m.retry, m.id), Deliveries(s.targetList, fails, r, |s.targetList|)))
  {
    var list := s.targetList;
    var heap := s.heap;
    var i := 0;
    while i < |list|
      invariant 0 <= i <= |list|
      invariant BroadcastSoFar(s.heap, heap, list, m, fails, i)
    {
      BroadcastStep(s.heap, heap, list, m, fails, i);
      heap := heap[list[i] := Send(heap[list[i]], m, i in fails)];
      i := i + 1;
    }
    s' := SSEHelper(list, heap);
    result := s'.targetList;
  }

  /** With no target registered twice, a broadcast of `frame` sends it to each listed target once unless its write fails, and leaves the others untouched. */
  lemma BroadcastDistinct(s: SSEHelper, s': SSEHelper, frame: string, fails: set<nat>)
    requires Valid(s)
    requires forall i, j :: 0 <= i < j < |s.targetList| ==> s.targetList[i] != s.targetList[j]
    requires s'.heap.Keys == s.heap.Keys
    requires forall r :: r in s.heap ==>
      s'.heap[r] == Append(s.heap[r], Repeat(frame, Deliveries(s.targetList, fails, r, |s.targetList|)))
    ensures forall k :: 0 <= k < |s.targetList| ==>
      s'.heap[s.targetList[k]] == Append(s.heap[s.targetList[k]], if k in fails then [] else [frame])
    ensures forall r :: r in s.heap && r !in s.targetList ==> s'.heap[r] == s.heap[r]
  {
    var list := s.targetList;
    forall k | 0 <= k < |list|
      ensures s'.heap[list[k]] == Append(s.heap[list[k]], if k in fails then [] else [frame])
    {
      DeliveriesOnce(list, fails, list[k], |list|);
      if k !in fails {
        assert exists j :: 0 <= j < |list| && list[j] == list[k] && j !in fails;
      } else {
        assert !exists j :: 0 <= j < |list| && list[j] == list[k] && j !in fails;
      }
    }
    forall r | r in s.heap && r !in list
      ensures s'.heap[r] == s.heap[r]
    {
      DeliveriesUnlisted(list, fails, r, |list|);
      assert Append(s.heap[r], []) == s.heap[r];
    }
  }

  /** A broadcast keeps every listed target registered: it only adds frames. */
  lemma BroadcastKeepsRegistered(s: SSEHelper, s': SSEHelper, frame: string, fails: set<nat>)
    requires Registered(s)
    requires s'.targetList == s.targetList && s'.heap.Keys == s.heap.Keys
    requires forall r :: r in s.heap ==>
      s'.heap[r] == Append(s.heap[r], Repeat(frame, Deliveries(s.targetList, fails, r, |s.targetList|)))
    ensures Registered(s')
  {
    forall k | 0 <= k < |s'.targetList|
      ensures OpenFrame in s'.heap[s'.targetList[k]].transport.written
    {
      var r := s.targetList[k];
      assert s.heap[r].transport.written <= s'.heap[r].transport.written;
    }
  }

  /** `broadcast(String, String)`: broadcasts the two-field event, whose frame has no `retry` or `id` line. */
  method BroadcastPair(s: SSEHelper, event: Option<string>, data: Option<string>, fails: set<nat>) returns (s': SSEHelper, result: seq<Ref>)
    requires Valid(s)
    ensures result == s'.targetList == s.targetList
    ensures s'.heap.Keys == s.heap.Keys
    ensures forall r :: r in s.heap ==>
      s'.heap[r] == Append(s.heap[r], Repeat(Build(event, data, None, None), Deliveries(s.targetList, fails, r, |s.targetList|)))
  {
    s', result := Broadcast(s, NewMessageEvent2(event, data), fails);
  }

  /**
   * `clearTargets`: closes every target of the snapshot, then empties the
   * list. `close` sets the flag before it calls `complete()`, so the
   * exception the loop ignores leaves the target as a normal `close` does.
   */
  method ClearTargets(s: SSEHelper) returns (s': SSEHelper)
    requires Valid(s)
    ensures s'.targetList == []
    ensures s'.heap.Keys == s.heap.Keys
    ensures forall r :: r in s.heap ==> s'.heap[r] == if r in s.targetList then Close(s.heap[r]) else s.heap[r]
  {
    var list := s.targetList;
    var heap := s.heap;
    var i := 0;
    while i < |list|
      invariant 0 <= i <= |list|
      invariant heap.Keys == s.heap.Keys
      invariant forall r :: r in heap ==> heap[r] == if r in list[..i] then Close(s.heap[r]) else s.heap[r]
    {
      var r := list[i];
      CloseIdempotent(s.heap[r]);
      heap := heap[r := Close(heap[r])];
      assert list[..i + 1] == list[..i] + [r];
      i := i + 1;
    }
    assert list[..i] == list;
    s' := SSEHelper([], heap);
  }

  /** After `clearTargets`, every target that was listed is completed, and `complete()` was called at most once on each. */
  lemma ClearTargetsCompletes(s: SSEHelper, s': SSEHelper)
    requires Valid(s)
    requires forall r :: r in s.heap ==> CompletedOnce(s.heap[r])
    requires s'.heap.Keys == s.heap.Keys
    requires forall r :: r in s.heap ==> s'.heap[r] == if r in s.targetList then Close(s.heap[r]) else s.heap[r]
    ensures forall k :: 0 <= k < |s.targetList| ==> s'.heap[s.targetList[k]].isCompleted
    ensures forall r :: r in s'.heap ==> CompletedOnce(s'.heap[r])
  {
    forall k | 0 <= k < |s.targetList|
      ensures s'.heap[s.targetList[k]].isCompleted
    {
      assert s.targetList[k] in s.targetList;
    }
  }
}

=== FILE: wrappers.dfy ===
/** Optional values: the model's stand-in for Java's nullable references. */
module Wrappers {

  /** `None` plays the part of `null`. */
  datatype Option<+T> = None | Some(value: T)
}
